=== FILE: README.md ===
# Network service discovery: a Dafny model

The modelled system lets processes on one IPv4 broadcast domain announce the services they
offer and discover the services their peers announce, without a central registry. Each engine
broadcasts an announcement on every local IPv4 interface at a fixed interval. It records the
announcements it receives in a registry keyed by sender address and service name, and forgets
entries that have not been heard of within the purge window.

The model covers three parts of the engine:

- `address_information.dfy` (module `AddressInformation`) is the subnet calculator. It covers
  `ip2long`, `long2ip` and the exported function. The function takes `a.b.c.d`, a decimal
  address, `address/prefix` or `address/dotted-netmask`. It derives the netmask, cidr, hostmask,
  network, size, class, broadcast, first and last fields. JavaScript's 32-bit operators (`<<`,
  `>>> 0`, `&`, `~`) are written out in integer arithmetic in `bits.dfy`. JavaScript's
  truncating `%` is `JsRem` in `address_information.dfy`. Decimal text, `split`, `join` and
  `indexOf` are in `text.dfy`.
- `ipv4_interfaces.dfy` (module `Ipv4Interfaces`) is the interface filter. The operating
  system's table is an argument. Its records are objects whose `name` field the filter sets in
  place.
- `service_discover.dfy` (module `ServiceDiscover`) is the engine: option merging and clamping in
  `start`, the registry update of the message handler, the purge, `getServices`, the choice of
  send targets in the announcement tick, `stop` and the socket error handler. The engine is a
  class whose fields are the options, whether the socket exists, the timer's period and the
  registry.

`wrappers.dfy` holds `Option`, JavaScript's `null`. `collections.dfy` holds `Array.prototype.filter`
and the subsequence order it keeps.

The model keeps these behaviours of the code as written:

- `start` reports an unknown option through its callback and carries on. It does not reject
  the options.
- The 5000 floor applies to the advertise interval, which the `DEFAULTS` comments give in
  seconds. The timer is then requested with a delay of 5,000,000 ms or more.
- `stop` closes the socket and stops the timer but keeps the registry.
- The broadcast target comes from the interface's `cidr` text.
- Node's `dgram` socket reports a failed bind as an `'error'` event, not through the bind
  callback. So a failed bind reaches the socket error handler, which closes the socket and
  calls the error handler, and the start callback is not called again.

## Model

| member | source | states |
|---|---|---|
| AddressInformation.DottedSum | src/get-address-information.js:26-28 | the running total of the `forEach`: each dotted part times its place value; after k parts it is at most 2^32 minus the k-th place value (its properties: Ip2Long, QuadRoundTrip) |
| AddressInformation.Ip2LongValue | src/get-address-information.js:25-29 | the value of one to four dotted octets always fits in 32 bits |
| AddressInformation.Ip2Long | src/get-address-information.js:25-29 | the `forEach` accumulation yields the place-weighted sum of the parts, below 2^32 |
| AddressInformation.JsRem | src/get-address-information.js:33 | JavaScript's `%`, whose remainder takes the sign of the dividend (used by Octet; see Long2IpWraps) |
| AddressInformation.Octet | src/get-address-information.js:33 | one mapped value of `long2ip`: `Math.floor((v % (m * 0x100)) / m)` (its values: OctetsOfQuad, Long2IpRoundTrip) |
| AddressInformation.Long2Ip | src/get-address-information.js:31-35 | `long2ip`: the four octets of a value rendered in decimal and joined with dots (its properties: Long2IpRoundTrip, Long2IpInjective, Long2IpWraps, DottedTextShape) |
| AddressInformation.QuadRoundTrip | src/get-address-information.js:25-35 | for octets a, b, c, d the text `a.b.c.d` is valid, `ip2long` reads it as their 32-bit value, and `long2ip` of that value gives the text back |
| AddressInformation.Long2IpRoundTrip | src/get-address-information.js:25-35 | `ip2long(long2ip(v)) == v` for every 32-bit value |
| AddressInformation.Long2IpInjective | src/get-address-information.js:31-35 | distinct 32-bit values have distinct dotted texts |
| AddressInformation.Long2IpWraps | src/get-address-information.js:31-35 | on non-negative values `long2ip` only sees the value modulo 2^32 |
| AddressInformation.DottedTextShape | src/get-address-information.js:31-35 | the text `long2ip` prints is valid dotted input, has a dot after a non-empty first part, and has no slash |
| AddressInformation.AddressValue | src/get-address-information.js:55-59 | the address part, dotted or decimal, reads as a value below 2^32 |
| AddressInformation.CanonicalMask | src/get-address-information.js:71-78 | `0xFFFFFFFF << (32 - i) >>> 0`, a value below 2^32 (closed form: MaskValue, Bits.CanonicalMaskValue) |
| AddressInformation.MaskBitsOf | src/get-address-information.js:70-75 | the prefix length the dotted-mask search reports, below 32: the `i` in 0..31 whose mask it is, or 0 (the loop: MaskBitsFromNetmask; uniqueness: CanonicalMaskInjective) |
| AddressInformation.MaskBitsFromNetmask | src/get-address-information.js:70-75 | the search loop returns the prefix length 0..31 whose mask equals the netmask, or 0 when none does |
| AddressInformation.CanonicalMaskInjective | src/get-address-information.js:70-75 | the masks the search compares against differ for distinct lengths 0..31, so the search's answer is unique |
| AddressInformation.MaskBitsOfCanonical | src/get-address-information.js:70-75 | the search finds length `i` for the mask of length `i` |
| AddressInformation.MaskValue | src/get-address-information.js:78 | the mask of length `i` in 1..31 is 2^32 - 2^(32-i), and of length 0 all ones |
| AddressInformation.MaskOf | src/get-address-information.js:64-79 | the mask part yields a prefix length of at most 32 and a netmask below 2^32 |
| AddressInformation.ClassOf | src/get-address-information.js:92-100 | the class of a first octet: A to 127, B to 191, C to 223, none above (bitwise reading: ClassByLeadingBits) |
| AddressInformation.ValuesOf | src/get-address-information.js:81-105 | network, size, hostmask, class, broadcast, first and last as numbers before rendering (properties: PrefixMask, HostRange, PointToPoint, ZeroPrefix) |
| AddressInformation.Render | src/get-address-information.js:84-105 | each address-valued field printed with `long2ip`, the broadcast only when defined (properties: ZeroPrefixText, NetmaskRoundTrip) |
| AddressInformation.Subnet | src/get-address-information.js:63-106 | the record for an address with a mask part (its shape: RecordShape) |
| AddressInformation.AddressInfoOf | src/get-address-information.js:40-109 | the record the exported function returns, or null for an empty argument (the method computing it: GetAddressInformation; properties: RecordShape, AddressOnly, AddressWithMask) |
| AddressInformation.GetAddressInformation | src/get-address-information.js:40-109 | the exported function returns exactly the record the calculator specifies, or null for an empty argument |
| AddressInformation.ClassByLeadingBits | src/get-address-information.js:92-100 | class A, B, C or none exactly when the first octet's leading bits are 0, 10, 110 or 111 |
| AddressInformation.PrefixPart | src/get-address-information.js:76-78 | a decimal prefix length 0..32 is a valid mask part and reads as its own mask |
| AddressInformation.AddressOnly | src/get-address-information.js:45-61 | without a slash, only `address` is set, to `long2ip` of the address value; every other field is null |
| AddressInformation.AddressWithMask | src/get-address-information.js:51-88 | `address/mask` gives the subnet record of the address value and the mask part's length and netmask |
| AddressInformation.AddressWithPrefix | src/get-address-information.js:76-79 | `address/n` for n in 1..32 uses the netmask whose top n of 32 bits are set |
| AddressInformation.PrefixMask | src/get-address-information.js:78-90 | for n in 1..32: netmask bits are exactly the top n, hostmask is their complement, network is address AND netmask (the address rounded down to a multiple of 2^(32-n)), and size is 2^(32-n) |
| AddressInformation.HostRange | src/get-address-information.js:102-105 | for n in 1..30: broadcast = network + size - 1 = network OR hostmask, first = network + 1, last = broadcast - 1, and network < first <= last < broadcast < 2^32 with the address inside the block |
| AddressInformation.PointToPoint | src/get-address-information.js:102-105 | for n of 31 and 32: no broadcast, first is the network, last is network + size - 1, and for /32 both are the address |
| AddressInformation.AddressWithZeroPrefix | src/get-address-information.js:77-78 | `address/0` gets the all-ones netmask, because a shift by 32 is a shift by 0 |
| AddressInformation.ZeroPrefix | src/get-address-information.js:78-105 | for /0: hostmask 0, network = address, size 2^32, first = address + 1, broadcast = address + 2^32 - 1 and last = address + 2^32 - 2, which `long2ip` prints modulo 2^32 |
| AddressInformation.ZeroPrefixText | src/get-address-information.js:84-102 | the /0 record prints netmask 255.255.255.255 and hostmask 0.0.0.0, and its broadcast wraps to the address one below |
| AddressInformation.RecordShape | src/get-address-information.js:45-106 | the subnet fields are set exactly when a mask part is present; then cidr <= 32, size = 2^(32-cidr), and a broadcast exists exactly when cidr <= 30 |
| AddressInformation.CanonicalDottedMask | src/get-address-information.js:67-79 | a dotted netmask equal to the mask of n in 1..31 gives the same record as `/n` |
| AddressInformation.NonCanonicalDottedMask | src/get-address-information.js:67-75 | a dotted netmask that is no length's mask raises no error: cidr 0, size 2^32, and the netmask used as given |
| AddressInformation.NetmaskRoundTrip | src/get-address-information.js:67-84 | for n in 1..31, the printed netmask of `/n`, given back as a dotted mask, gives the same record |
| AddressInformation.AllOnesMaskPart | src/get-address-information.js:67-75 | 255.255.255.255 as a mask part reads as length 0 with the all-ones netmask |
| AddressInformation.AllOnesDottedMask | src/get-address-information.js:67-90 | `/32` prints netmask 255.255.255.255 with cidr 32 and size 1, but that netmask given back yields cidr 0 and size 2^32 |
| AddressInformation.DottedAddressClass | src/get-address-information.js:93-100 | a dotted address keeps its text and is classed by its first octet |
| Bits.ShiftLeft32 | src/get-address-information.js:71-78 | `(x << count) >>> 0`: the count taken modulo 32, the result below 2^32 (mask values: Bits.CanonicalMaskValue, Bits.ZeroPrefixMask) |
| Bits.BitAnd | src/get-address-information.js:81 | `a & b` on 32 bits, below 2^(width) (bitwise agreement: Bits.BitAndBits; rounding down: AddressInformation.PrefixMask) |
| Bits.BitAndBits | src/get-address-information.js:81 | bit k of the modelled `&` is set exactly when bit k of both operands is |
| Bits.Not32 | src/get-address-information.js:86 | `~x` is the 32-bit complement read back as signed: negative exactly when bit 31 of x is clear |
| Bits.CanonicalMaskValue | src/get-address-information.js:78 | `0xFFFFFFFF << (32 - n) >>> 0` has exactly the top n bits set, for n in 1..32 |
| Bits.ZeroPrefixMask | src/get-address-information.js:78 | for n = 0 the shift count 32 is taken as 0 and the mask is all ones |
| Bits.Block | src/get-address-information.js:81-102 | address AND the mask of the top 32-s bits is a multiple of 2^s at most the address, and the block of 2^s from there contains the address and stays below 2^32 |
| Collections.Filter | src/get-ipv4-interfaces.js:22-24 | `Array.prototype.filter`: no longer than its input, every element in the input and passing the test (membership both ways: Collections.FilterMembership) |
| Collections.FilterMembership | src/get-ipv4-interfaces.js:22-24 | an element is in the filtered list exactly when it is in the input and passes the test |
| Ipv4Interfaces.Flatten | src/get-ipv4-interfaces.js:22 | `[].concat.apply([], lists)`: the records of all interfaces, interface by interface (membership: FlattenMembership) |
| Ipv4Interfaces.Ipv4Of | src/get-ipv4-interfaces.js:22-24 | every returned record is IPv4 and not internal when internals are excluded, in table order |
| Ipv4Interfaces.FlattenMembership | src/get-ipv4-interfaces.js:22 | a record is in the flattened table exactly when some interface lists it |
| Ipv4Interfaces.Ipv4OfMembership | src/get-ipv4-interfaces.js:22-24 | a record is returned exactly when some interface lists it, it is IPv4, and it is not an excluded internal one |
| Ipv4Interfaces.Ipv4OfComplete | src/get-ipv4-interfaces.js:22-23 | without exclusion every IPv4 record of every interface is returned |
| Ipv4Interfaces.GetIpv4Interfaces | src/get-ipv4-interfaces.js:11-27 | every record of the table is named after its interface, in place, and the result is the filtered flattened table, each element named after the interface listing it |
| ServiceDiscover.KeyOf | src/network-service-discover.js:193-196 | which of the defaults' keys a key is, or none (used by UnknownOptionReports; ServicesKeyIsUnknown) |
| ServiceDiscover.Lookup | src/network-service-discover.js:203 | a key's value is found exactly when the key is supplied, and it is the value of its last occurrence |
| ServiceDiscover.Merge | src/network-service-discover.js:203 | `Object.assign({}, DEFAULTS, options)`: the supplied keys assigned in order over the defaults (what it reads: MergeOverrides) |
| ServiceDiscover.FieldAfterAssign | src/network-service-discover.js:203 | assigning a property changes what that property reads and nothing else |
| ServiceDiscover.MergeOverrides | src/network-service-discover.js:203 | every property of the merged options reads the last supplied value for it, or else the default's |
| ServiceDiscover.UnknownOptionReports | src/network-service-discover.js:193-201 | the reports are exactly one per supplied key outside the defaults' keys, in the order supplied, and name no other key |
| ServiceDiscover.ServicesKeyIsUnknown | src/network-service-discover.js:30-58 | `services` is not among the defaults' keys |
| ServiceDiscover.Clamped | src/network-service-discover.js:206 | the interval becomes at least 5000, only ever increases, is 5000 or unchanged, and nothing else changes |
| ServiceDiscover.Received | src/network-service-discover.js:149-164 | one entry per announced service, keyed by sender and service name, carrying the announcement's fields and stamped with the receipt time |
| ServiceDiscover.KeptIff | src/network-service-discover.js:170-174 | an entry is kept exactly when no received entry shares its sender and service name |
| ServiceDiscover.ReplacedBy | src/network-service-discover.js:170-175 | the new registry is an order-preserving selection of the old one followed by all received entries |
| ServiceDiscover.ReplacedByMembership | src/network-service-discover.js:170-175 | an entry is in the new registry exactly when it was received, or was there and nothing received shares its key |
| ServiceDiscover.ReReceiveKeepsLength | src/network-service-discover.js:170-176 | hearing the same announcement again from the same sender leaves the registry's length unchanged |
| ServiceDiscover.ReceiveKeepsKeysUnique | src/network-service-discover.js:170-175 | a receipt keeps keys unique in the registry when the announcement names each service once |
| ServiceDiscover.Purged | src/network-service-discover.js:96-103 | the purged registry is an order-preserving selection of entries last seen strictly after the deadline; a window of zero or less keeps everything |
| ServiceDiscover.PurgedMembership | src/network-service-discover.js:96-103 | an entry survives exactly when the window is disabled or it was last seen strictly after now minus the window |
| ServiceDiscover.PurgeIdempotent | src/network-service-discover.js:96-103 | purging twice at the same time is purging once |
| ServiceDiscover.PurgeLater | src/network-service-discover.js:96-103 | a purge at a later time subsumes an earlier one |
| ServiceDiscover.PurgeKeepsKeysUnique | src/network-service-discover.js:96-103 | purging keeps keys unique |
| ServiceDiscover.BroadcastOf | src/network-service-discover.js:124-125 | the broadcast the calculator derives for an interface's `cidr` (computed by BroadcastTarget) |
| ServiceDiscover.Broadcasts | src/network-service-discover.js:122-126 | the broadcast of each interface, one per interface in order |
| ServiceDiscover.SendTargets | src/network-service-discover.js:122-129 | every datagram goes to a defined broadcast address with the configured port and the announcement |
| ServiceDiscover.SendTargetsExact | src/network-service-discover.js:122-129 | exactly one datagram per defined broadcast address, in interface order |
| ServiceDiscover.BroadcastTarget | src/network-service-discover.js:124-125 | the target of an interface is the calculator's broadcast for its `cidr` |
| ServiceDiscover.SendAll | src/network-service-discover.js:122-129 | the loop sends to the broadcast of each interface that has one, in order |
| ServiceDiscover.SendGuard | src/network-service-discover.js:109 | the corrected guard: a socket and a non-empty `service` option (properties: SendGuardFollowsServiceOption, Advertise) |
| ServiceDiscover.LengthOf | src/network-service-discover.js:109 | `x.length` for a value other than `null`: a list's or string's length, none for numbers, booleans and handlers |
| ServiceDiscover.SendGuardAsWritten | src/network-service-discover.js:109 | with the socket open, the tick throws exactly when no `services` option was supplied or it is `null`/`undefined`; with it closed, the tick returns |
| ServiceDiscover.SendGuardAsWrittenThrows | src/network-service-discover.js:109 | started without a `services` option, every tick as written throws |
| ServiceDiscover.SendGuardAsWrittenThrowsOnNull | src/network-service-discover.js:109 | started with a `services` option of `null` or `undefined`, every tick as written throws |
| ServiceDiscover.SendGuardFollowsServiceOption | src/network-service-discover.js:109 | with the corrected guard, a started engine announces exactly when the last `service` option is a non-empty list |
| ServiceDiscover.MessageHandlerAsWritten | src/network-service-discover.js:166 | the handler as written throws a ReferenceError on every announcement |
| ServiceDiscover.MessageHandlerLosesAnnouncements | src/network-service-discover.js:147-182 | an announcement of at least one service is lost as written, while the corrected handler records it under sender and name |
| ServiceDiscover.NetworkServiceDiscover.constructor | src/network-service-discover.js:61-74 | a new engine has no options, socket, timer or registry |
| ServiceDiscover.NetworkServiceDiscover.TimerFloor | src/network-service-discover.js:206-223 | the delay a running timer was requested with is at least 5,000,000 ms |
| ServiceDiscover.NetworkServiceDiscover.Purge | src/network-service-discover.js:96-103 | the registry becomes its purge at the given time |
| ServiceDiscover.NetworkServiceDiscover.GetServices | src/network-service-discover.js:244-247 | purge, then return the registry itself |
| ServiceDiscover.NetworkServiceDiscover.Receive | src/network-service-discover.js:147-182 | the registry becomes the purge of its replacement by the received entries; the change handler gets the registry exactly when it is set and the length differed from before after the replacement or after the purge |
| ServiceDiscover.NetworkServiceDiscover.Advertise | src/network-service-discover.js:108-131 | without socket or services nothing is sent and neither the registry nor any interface record changes; otherwise every interface record is named after its interface, one datagram goes to each selected interface's broadcast, in order, at the configured port, and the registry is purged |
| ServiceDiscover.NetworkServiceDiscover.Start | src/network-service-discover.js:189-228 | with a socket, nothing happens; otherwise unknown keys are reported in order, the options become the clamped merge over the defaults, and a successful bind opens the socket, starts the timer and reports the socket, while a failed bind leaves no socket and no timer and reaches the error handler exactly when one is set |
| ServiceDiscover.NetworkServiceDiscover.Stop | src/network-service-discover.js:234-239 | the socket and timer are gone, the callback runs only if there was a socket, and the registry is kept |
| ServiceDiscover.NetworkServiceDiscover.SocketError | src/network-service-discover.js:137-140 | the socket and timer are gone, and the error reaches the error handler exactly when one is set |

## Left out

- The UDP socket, the interval timer, `os.networkInterfaces`, `os.hostname`, the uptimes and
  `new Date()` are outside the model. The time, the bind outcome, the interface table, the host
  name and the uptimes are arguments. The purge deadline is taken as `now` minus 1000 times
  the window, in integer milliseconds. The source instead computes it with
  `setSeconds(getSeconds() - purge)` on a `Date`, which works in local time: across a
  daylight-saving change the deadline can move by an hour, and after a spring-forward change
  it can lie after `now`, so that every entry is purged, including ones just received. That
  local-time effect is not modelled.
- JSON encoding and decoding of announcements is left out. An announcement is a value, and
  malformed datagrams are not modelled.
- Debug output is left out. So are calls to the error handler from a failed send: the model
  records which datagrams are handed to the socket, not their delivery.
- `isValidAddress` has an empty body and is never called, so it is not modelled.
- Interleaving of the three event sources is left out: each operation runs to completion.
- AddressInformation.GetAddressInformation: the inputs are restricted to decimal octets 0..255
  (at most four), decimal addresses below 2^32 and decimal prefix lengths 0..32. Other text
  makes JavaScript compute values outside the modelled range: a sum of 2^32 or more, which
  `long2ip` wraps (`256.1.1.1` prints as `0.1.1.1`, and `1.256` carries into the next octet);
  a negative value from a sign (`-1.0.0.0`); the numeric prefix of partly numeric text
  (`parseInt("24x", 10)` is 24); and 0 for an empty octet (`1..2.3`). Non-numeric text and a
  fifth dotted part give `NaN`, and a prefix above 32 gives a fractional size. None of this is
  modelled.
- ServiceDiscover.NetworkServiceDiscover.Advertise: every selected interface must have a
  non-empty `cidr` that the calculator accepts. A `null` cidr makes the source throw, and that
  path is not modelled.
- ServiceDiscover.NetworkServiceDiscover.Start: supplied options are key/value pairs in key
  order, with distinct keys, and each documented key carries a value of its own kind. A
  mistyped value, such as a string port, is not modelled. Handlers are reduced to whether they
  are set, and the change handler's argument is returned instead of being called.
- ServiceDiscover.NetworkServiceDiscover.Start: the returned callbacks are those `start` passes
  to its callback. When no callback is given (`cb && ...`), nothing is delivered; that case is
  not modelled separately.
- ServiceDiscover.NetworkServiceDiscover.Start: the `if(err)` branch of the bind callback at
  src/network-service-discover.js:216-218 is not modelled. Node calls that callback only once
  the socket is listening, so the branch is never taken; a failed bind takes the socket error
  path instead.
- ServiceDiscover.NetworkServiceDiscover.TimerFloor: `timerPeriod` is the delay requested of
  `setInterval`. Node replaces a delay above 2^31 - 1 ms with 1 ms, so an interval above
  2,147,483 seconds fires every millisecond. That clamp is outside the model.
- ServiceDiscover.NetworkServiceDiscover.GetServices: the source hands out its live registry
  array, here and to the change handler. Changes a caller makes to that array would change
  the registry, and that aliasing is not modelled: the snapshot is a value.
- ServiceDiscover.LengthOf: numbers, booleans and handlers are read as having no length. The
  arity of a function passed as `services` is not modelled. A `services` option of `null` or
  `undefined` is the `Null` value, for which the guard as written throws a TypeError.
- ServiceDiscover.NetworkServiceDiscover.Start: `Null` is admitted only for unknown keys. A
  documented key set to `null` or `undefined` counts as mistyped and is not modelled.
- Ipv4Interfaces.GetIpv4Interfaces: the table is assumed to list each record object once, as
  a freshly built table does. Aliasing between interfaces is not modelled.
- ServiceDiscover.NetworkServiceDiscover.Purge: before the first `start` the window is
  undefined. The source's comparison then fails for every entry and the registry becomes
  empty, which it already is.

## Findings

| source | as written | input that shows it | evidently intended | confidence | as-written member | corrected member |
|---|---|---|---|---|---|---|
| src/network-service-discover.js:166 | `serviceCount = service.length` reads an undeclared name, so the handler throws a ReferenceError before the registry is updated | any announcement, e.g. one service `{name: 'a', port: 1, path: '/'}` from 10.0.0.2 | `services.length`: the registry's length before the update | not executed | ServiceDiscover.MessageHandlerLosesAnnouncements | ServiceDiscover.NetworkServiceDiscover.Receive |
| src/network-service-discover.js:109 | the guard reads `opts.services.length`, but the documented option is `service`, so the tick throws a TypeError unless an unknown `services` option was supplied | `start({service: [{name: 'a', port: 1, path: '/'}]})` followed by one tick | `opts.service.length`: announce only when services are configured | not executed | ServiceDiscover.SendGuardAsWrittenThrows | ServiceDiscover.SendGuardFollowsServiceOption |

=== FILE: address_information.dfy ===
/**
 * The IPv4 subnet calculator: `ip2long`, `long2ip`, and the exported function
 * that takes `address`, `address/prefix` or `address/dotted-netmask` and
 * derives netmask, prefix length (cidr), hostmask, network, size, address
 * class, broadcast, and the first and last usable host.
 *
 * The source validates nothing: inputs are restricted here to decimal octets
 * 0..255 (at most four of them), decimal addresses below 2^32 and decimal
 * prefix lengths 0..32. Other text makes JavaScript compute values outside
 * that range: sums of 2^32 or more, which `long2ip` wraps; negative values;
 * the numeric prefix of partly numeric text; 0 for an empty octet.
 * Non-numeric text and a fifth dotted part give NaN, and a prefix above 32
 * gives a fractional size. None of these inputs is modelled.
 */
module AddressInformation {
  import opened Wrappers
  import opened Text
  import opened Bits

  /** Place value of each dotted part, most significant first. */
  const Multipliers: seq<nat> := [0x100_0000, 0x1_0000, 0x100, 1]

  datatype AddressClass = A | B | C

  /** The record the calculator returns; `None` is JavaScript's `null`. */
  datatype AddressInfo = AddressInfo(
    address: string,
    netmask: Option<string>,
    cidr: Option<nat>,
    hostmask: Option<string>,
    network: Option<string>,
    addressClass: Option<AddressClass>,
    broadcast: Option<string>,
    size: Option<nat>,
    first: Option<string>,
    last: Option<string>)

  // ---------------------------------------------------------------- ip2long

  predicate IsOctet(s: string) { IsNumeral(s) && DigitsValue(s) <= 255 }

  /** One to four dot-separated decimal octets. */
  predicate ValidDotted(s: string)
  {
    var parts := Split(s, '.');
    |parts| <= 4 && forall i :: 0 <= i < |parts| ==> IsOctet(parts[i])
  }

  /** What `ip2long` has accumulated after the given parts: each weighted by its place. */
  function DottedSum(parts: seq<string>): (v: nat)
    requires |parts| <= 4 && forall i :: 0 <= i < |parts| ==> IsOctet(parts[i])
    ensures |parts| > 0 ==> v <= Two32 - Multipliers[|parts| - 1]
  {
    if |parts| == 0 then 0
    else
      var k := |parts| - 1;
      assert IsOctet(parts[k]);
      var octet := DigitsValue(parts[k]);
      assert k > 0 ==> Multipliers[k - 1] == 0x100 * Multipliers[k];
      DottedSum(parts[..k]) + octet * Multipliers[k]
  }

  /** The value `ip2long` computes for a dotted address; it always fits in 32 bits. */
  function Ip2LongValue(ip: string): (v: nat)
    requires ValidDotted(ip)
    ensures v < Two32
  {
    DottedSum(Split(ip, '.'))
  }

  /** `ip2long`: split at the dots and add up each part times its place value. */
  method Ip2Long(ip: string) returns (longValue: nat)
    requires ValidDotted(ip)
    ensures longValue == Ip2LongValue(ip)
    ensures longValue < Two32
  {
    var parts := Split(ip, '.');
    longValue := 0;
    for i := 0 to |parts|
      invariant longValue == DottedSum(parts[..i])
    {
      assert parts[..i + 1][..i] == parts[..i];
      longValue := longValue + DigitsValue(parts[i]) * Multipliers[i];
    }
    assert parts[..|parts|] == parts;
  }

  // ---------------------------------------------------------------- long2ip

  /** JavaScript's `%`: the remainder takes the sign of the dividend. */
  function JsRem(a: int, m: nat): int
    requires m > 0
  {
    if a >= 0 then a % m else -((-a) % m)
  }

  /** `Math.floor((v % (multiplier * 0x100)) / multiplier)`; Dafny's `/` by a positive divisor floors. */
  function Octet(v: int, multiplier: nat): int
    requires multiplier > 0
  {
    JsRem(v, multiplier * 0x100) / multiplier
  }

  /**
   * `long2ip`: `multipliers.map(...)` written out for the four place values, each octet
   * rendered in decimal, joined with dots (negative inputs give negative octets).
   */
  function Long2Ip(v: int): string
  {
    Join([IntToString(Octet(v, 0x100_0000)), IntToString(Octet(v, 0x1_0000)),
          IntToString(Octet(v, 0x100)), IntToString(Octet(v, 1))], '.')
  }

  /** The canonical dotted text `a.b.c.d`. */
  function DottedQuad(a: nat, b: nat, c: nat, d: nat): string
  {
    Join([NatToString(a), NatToString(b), NatToString(c), NatToString(d)], '.')
  }

  lemma NumeralHasNoDelimiter(s: string)
    requires AllDigits(s)
    ensures '.' !in s && '/' !in s
  {
  }

  /** `ip2long` of the dotted text of four octets is their 32-bit value, and `long2ip` gives the text back. */
  lemma QuadRoundTrip(a: nat, b: nat, c: nat, d: nat)
    requires a <= 255 && b <= 255 && c <= 255 && d <= 255
    ensures ValidDotted(DottedQuad(a, b, c, d))
    ensures Ip2LongValue(DottedQuad(a, b, c, d)) == a * 0x100_0000 + b * 0x1_0000 + c * 0x100 + d
    ensures Long2Ip(a * 0x100_0000 + b * 0x1_0000 + c * 0x100 + d) == DottedQuad(a, b, c, d)
  {
    QuadParts(a, b, c, d);
    OctetsOfQuad(a, b, c, d);
  }

  /** The dotted text of four octets splits back into the four numerals, whose weighted sum is the value. */
  lemma QuadParts(a: nat, b: nat, c: nat, d: nat)
    requires a <= 255 && b <= 255 && c <= 255 && d <= 255
    ensures ValidDotted(DottedQuad(a, b, c, d))
    ensures Ip2LongValue(DottedQuad(a, b, c, d)) == a * 0x100_0000 + b * 0x1_0000 + c * 0x100 + d
  {
    QuadSplit(a, b, c, d);
    QuadSum(a, b, c, d);
  }

  lemma QuadSplit(a: nat, b: nat, c: nat, d: nat)
    requires a <= 255 && b <= 255 && c <= 255 && d <= 255
    ensures var parts := [NatToString(a), NatToString(b), NatToString(c), NatToString(d)];
      Split(DottedQuad(a, b, c, d), '.') == parts && forall i :: 0 <= i < 4 ==> IsOctet(parts[i])
  {
    var parts := [NatToString(a), NatToString(b), NatToString(c), NatToString(d)];
    forall i | 0 <= i < 4 ensures '.' !in parts[i] {
      NumeralHasNoDelimiter(parts[i]);
    }
    SplitJoin(parts, '.');
    NumeralRoundTrip(a);
    NumeralRoundTrip(b);
    NumeralRoundTrip(c);
    NumeralRoundTrip(d);
  }

  lemma QuadSum(a: nat, b: nat, c: nat, d: nat)
    requires a <= 255 && b <= 255 && c <= 255 && d <= 255
    ensures var parts := [NatToString(a), NatToString(b), NatToString(c), NatToString(d)];
      (forall i :: 0 <= i < 4 ==> IsOctet(parts[i])) &&
      DottedSum(parts) == a * 0x100_0000 + b * 0x1_0000 + c * 0x100 + d
  {
    var pa, pb, pc, pd := NatToString(a), NatToString(b), NatToString(c), NatToString(d);
    NumeralRoundTrip(a);
    NumeralRoundTrip(b);
    NumeralRoundTrip(c);
    NumeralRoundTrip(d);
    OctetNumerals(pa, pb, pc, pd, a, b, c, d);
  }

  lemma OctetNumerals(pa: string, pb: string, pc: string, pd: string, a: nat, b: nat, c: nat, d: nat)
    requires a <= 255 && b <= 255 && c <= 255 && d <= 255
    requires IsNumeral(pa) && IsNumeral(pb) && IsNumeral(pc) && IsNumeral(pd)
    requires DigitsValue(pa) == a && DigitsValue(pb) == b && DigitsValue(pc) == c && DigitsValue(pd) == d
    ensures var parts := [pa, pb, pc, pd];
      (forall i :: 0 <= i < 4 ==> IsOctet(parts[i])) &&
      DottedSum(parts) == a * 0x100_0000 + b * 0x1_0000 + c * 0x100 + d
  {
    WeightedSum([pa, pb, pc, pd], a, b, c, d);
  }

  /** Four octet numerals add up to their place-weighted values. */
  lemma WeightedSum(parts: seq<string>, a: nat, b: nat, c: nat, d: nat)
    requires |parts| == 4 && IsOctet(parts[0]) && IsOctet(parts[1]) && IsOctet(parts[2]) && IsOctet(parts[3])
    requires DigitsValue(parts[0]) == a && DigitsValue(parts[1]) == b
    requires DigitsValue(parts[2]) == c && DigitsValue(parts[3]) == d
    ensures DottedSum(parts) == a * 0x100_0000 + b * 0x1_0000 + c * 0x100 + d
  {
    assert parts[..3][..2] == parts[..2];
    assert parts[..2][..1] == parts[..1];
    assert parts[..1][..0] == [];
    assert parts[..4] == parts;
    assert DottedSum(parts[..1]) == a * 0x100_0000;
    assert DottedSum(parts[..2]) == a * 0x100_0000 + b * 0x1_0000;
    assert DottedSum(parts[..3]) == a * 0x100_0000 + b * 0x1_0000 + c * 0x100;
  }

  lemma OctetsOfQuad(a: nat, b: nat, c: nat, d: nat)
    requires a <= 255 && b <= 255 && c <= 255 && d <= 255
    ensures var v := a * 0x100_0000 + b * 0x1_0000 + c * 0x100 + d;
      Octet(v, 0x100_0000) == a && Octet(v, 0x1_0000) == b && Octet(v, 0x100) == c && Octet(v, 1) == d
  {
    var v := a * 0x100_0000 + b * 0x1_0000 + c * 0x100 + d;
    DivModUnique(v, Two32, 0, v);
    DivModUnique(v, 0x100_0000, a, b * 0x1_0000 + c * 0x100 + d);
    DivModUnique(v, 0x1_0000, a * 0x100 + b, c * 0x100 + d);
    DivModUnique(v, 0x100, a * 0x1_0000 + b * 0x100 + c, d);
    DivModUnique(b * 0x1_0000 + c * 0x100 + d, 0x1_0000, b, c * 0x100 + d);
    DivModUnique(c * 0x100 + d, 0x100, c, d);
    DivModUnique(d, 1, d, 0);
  }

  /** `ip2long(long2ip(v)) == v` for every 32-bit value. */
  lemma Long2IpRoundTrip(v: int)
    requires 0 <= v < Two32
    ensures ValidDotted(Long2Ip(v))
    ensures Ip2LongValue(Long2Ip(v)) == v
  {
    var a, b, c, d := Bytes(v);
    Long2IpOfBytes(v, a, b, c, d);
    QuadParts(a, b, c, d);
  }

  lemma Long2IpOfBytes(v: int, a: nat, b: nat, c: nat, d: nat)
    requires a <= 255 && b <= 255 && c <= 255 && d <= 255
    requires v == a * 0x100_0000 + b * 0x1_0000 + c * 0x100 + d
    ensures Long2Ip(v) == DottedQuad(a, b, c, d)
  {
    OctetsOfQuad(a, b, c, d);
  }

  /** The four bytes of a 32-bit value, most significant first. */
  lemma Bytes(v: int) returns (a: nat, b: nat, c: nat, d: nat)
    requires 0 <= v < Two32
    ensures a <= 255 && b <= 255 && c <= 255 && d <= 255
    ensures v == a * 0x100_0000 + b * 0x1_0000 + c * 0x100 + d
  {
    var r1 := v % 0x100_0000;
    var r2 := r1 % 0x1_0000;
    a, b, c, d := v / 0x100_0000, r1 / 0x1_0000, r2 / 0x100, r2 % 0x100;
  }

  /** Distinct 32-bit values have distinct dotted texts. */
  lemma Long2IpInjective(x: int, y: int)
    requires 0 <= x < Two32 && 0 <= y < Two32
    requires Long2Ip(x) == Long2Ip(y)
    ensures x == y
  {
    Long2IpRoundTrip(x);
    Long2IpRoundTrip(y);
  }

  /** On non-negative values `long2ip` only sees the low 32 bits: larger sums wrap around. */
  lemma Long2IpWraps(v: int)
    requires v >= 0
    ensures Long2Ip(v) == Long2Ip(v % Two32)
  {
    var w := v % Two32;
    var q := v / Two32;
    assert v == Two32 * q + w;
    ModOfMultiple(v, q, w, 0x100_0000, 0x100);
    ModOfMultiple(v, q, w, 0x1_0000, 0x1_0000);
    ModOfMultiple(v, q, w, 0x100, 0x100_0000);
    ModOfMultiple(v, q, w, 1, Two32);
  }

  /** Adding a multiple of 2^32 does not change a remainder modulo a divisor of 2^32. */
  lemma ModOfMultiple(v: int, q: int, w: int, m: nat, k: nat)
    requires m > 0 && m * k == 0x100 * 0x100_0000 && 0 <= w && v == Two32 * q + w && v >= 0
    ensures v % m == w % m
  {
    var r := w % m;
    assert w == m * (w / m) + r;
    assert v == m * (k * q + w / m) + r;
    DivModUnique(v, m, k * q + w / m, r);
  }

  // ---------------------------------------------------------------- the calculator

  /** The address before the slash: dotted (`indexOf('.') > 0`) or a decimal integer below 2^32. */
  predicate ValidAddressPart(p: string)
  {
    if IndexOf(p, '.') > 0 then ValidDotted(p) else IsNumeral(p) && DigitsValue(p) < Two32
  }

  /** The text after the slash: a dotted netmask or a decimal prefix length 0..32. */
  predicate ValidMaskPart(p: string)
  {
    if IndexOf(p, '.') > 0 then ValidDotted(p) else IsNumeral(p) && DigitsValue(p) <= 32
  }

  /** The inputs the calculator is modelled on: the empty string (JavaScript-falsy) or well-formed parts. */
  predicate ValidInput(address: string)
  {
    address == "" ||
    var parts := Split(address, '/');
    ValidAddressPart(parts[0]) && (|parts| > 1 ==> ValidMaskPart(parts[1]))
  }

  /** The 32-bit address: `ip2long` of dotted text, `parseInt(_, 10)` of a bare number. */
  function AddressValue(p: string): (v: nat)
    requires ValidAddressPart(p)
    ensures v < Two32
  {
    if IndexOf(p, '.') > 0 then Ip2LongValue(p) else DigitsValue(p)
  }

  /** `0xFFFFFFFF << (32 - i) >>> 0`, the netmask the source builds for a prefix length `i`. */
  function CanonicalMask(i: nat): (m: nat)
    requires i <= 32
    ensures m < Two32
  {
    ShiftLeft32(0xFFFF_FFFF, 32 - i)
  }

  /**
   * The prefix length the mask search reports for a dotted netmask: the `i` in 0..31
   * whose canonical mask it is, and 0 when there is none.
   */
  ghost function MaskBitsOf(mask: nat): (bits: nat)
    ensures bits < 32
  {
    if exists i :: 0 <= i < 32 && CanonicalMask(i) == mask then
      var i :| 0 <= i < 32 && CanonicalMask(i) == mask; i
    else 0
  }

  /** Masks of distinct prefix lengths 0..31 differ (a length of 32 would repeat that of 0). */
  lemma CanonicalMaskInjective(i: nat, j: nat)
    requires i < 32 && j < 32 && CanonicalMask(i) == CanonicalMask(j)
    ensures i == j
  {
    MaskValue(i);
    MaskValue(j);
    if i != j {
      Pow2Injective(32 - i, 32 - j);
    }
  }

  /** The mask of a length 0..31 is `2^32 - 2^(32 - i)` when `i > 0` and all ones when `i == 0`. */
  lemma MaskValue(i: nat)
    requires i < 32
    ensures i > 0 ==> CanonicalMask(i) == Two32 - Pow2(32 - i) && Pow2(32 - i) > 1
    ensures i == 0 ==> CanonicalMask(i) == Two32 - 1
  {
    Pow2Of32();
    if i > 0 {
      CanonicalMaskValue(i);
      Pow2Monotone(1, 32 - i);
    } else {
      ZeroPrefixMask();
    }
  }

  lemma MaskBitsOfCanonical(i: nat)
    requires i < 32
    ensures MaskBitsOf(CanonicalMask(i)) == i
  {
    var m := CanonicalMask(i);
    var j :| 0 <= j < 32 && CanonicalMask(j) == m && MaskBitsOf(m) == j;
    CanonicalMaskInjective(i, j);
  }

  /** The `for` loop that looks for the prefix length of a dotted netmask, stopping at the first match. */
  method MaskBitsFromNetmask(longNetmask: nat) returns (maskBits: nat)
    ensures maskBits == MaskBitsOf(longNetmask)
  {
    maskBits := 0;
    for i := 0 to 32
      invariant forall j :: 0 <= j < i ==> CanonicalMask(j) != longNetmask
    {
      if longNetmask == CanonicalMask(i) {
        maskBits := i;
        MaskBitsOfCanonical(i);
        break;
      }
    }
  }

  /** Class A = 0-127, B = 128-191, C = 192-223 by the first octet; none above. */
  function ClassOf(firstOctet: nat): Option<AddressClass>
  {
    if firstOctet <= 127 then Some(A)
    else if firstOctet <= 191 then Some(B)
    else if firstOctet <= 223 then Some(C)
    else None
  }

  /** (`mask_bits`, `long_netmask`) for the text after the slash. */
  ghost function MaskOf(maskPart: string): (r: (nat, nat))
    requires ValidMaskPart(maskPart)
    ensures r.0 <= 32 && r.1 < Two32
  {
    if IndexOf(maskPart, '.') > 0 then
      var longNetmask := Ip2LongValue(maskPart);
      (MaskBitsOf(longNetmask), longNetmask)
    else
      var maskBits := DigitsValue(maskPart);
      (maskBits, CanonicalMask(maskBits))
  }

  /** A record with only the address set. */
  function Blank(address: string): AddressInfo
  {
    AddressInfo(address, None, None, None, None, None, None, None, None, None)
  }

  /**
   * The 32-bit quantities the calculator derives before rendering them: `long_netmask`,
   * `~long_netmask`, `long_network`, the size, the class, and the broadcast, first and last values.
   */
  datatype SubnetValues = SubnetValues(
    cidr: nat,
    netmask: nat,
    hostmask: int,
    network: nat,
    size: nat,
    addressClass: Option<AddressClass>,
    broadcast: Option<int>,
    first: int,
    last: int)

  /** The values for an address, a prefix length and a netmask; first is the network and no broadcast for /31 and /32. */
  function ValuesOf(longIp: nat, maskBits: nat, longNetmask: nat): SubnetValues
    requires longIp < Two32 && maskBits <= 32 && longNetmask < Two32
  {
    var longNetwork := BitAnd(longIp, longNetmask, 32);
    var size := Pow2(32 - maskBits);
    SubnetValues(
      cidr := maskBits,
      netmask := longNetmask,
      hostmask := Not32(longNetmask),
      network := longNetwork,
      size := size,
      addressClass := ClassOf(longIp / 0x100_0000),
      broadcast := if maskBits <= 30 then Some(longNetwork + size - 1) else None,
      first := if maskBits <= 30 then longNetwork + 1 else longNetwork,
      last := if maskBits <= 30 then longNetwork + size - 2 else longNetwork + size - 1)
  }

  /** The record: each address-valued quantity rendered with `long2ip`. */
  function Render(longIp: nat, v: SubnetValues): AddressInfo
  {
    AddressInfo(
      address := Long2Ip(longIp),
      netmask := Some(Long2Ip(v.netmask)),
      cidr := Some(v.cidr),
      hostmask := Some(Long2Ip(v.hostmask)),
      network := Some(Long2Ip(v.network)),
      addressClass := v.addressClass,
      broadcast := if v.broadcast.Some? then Some(Long2Ip(v.broadcast.value)) else None,
      size := Some(v.size),
      first := Some(Long2Ip(v.first)),
      last := Some(Long2Ip(v.last)))
  }

  /** The record for an address with a mask part. */
  function Subnet(longIp: nat, maskBits: nat, longNetmask: nat): AddressInfo
    requires longIp < Two32 && maskBits <= 32 && longNetmask < Two32
  {
    Render(longIp, ValuesOf(longIp, maskBits, longNetmask))
  }

  /** What the exported function returns; `None` for a falsy argument. */
  ghost function AddressInfoOf(address: string): Option<AddressInfo>
    requires ValidInput(address)
  {
    if address == "" then None
    else
      var parts := Split(address, '/');
      var longIp := AddressValue(parts[0]);
      if |parts| > 1 then
        var (maskBits, longNetmask) := MaskOf(parts[1]);
        Some(Subnet(longIp, maskBits, longNetmask))
      else Some(Blank(Long2Ip(longIp)))
  }

  /** The exported function: parse the argument, then fill in the subnet fields when a mask part is present. */
  method GetAddressInformation(address: string) returns (result: Option<AddressInfo>)
    requires ValidInput(address)
    ensures result == AddressInfoOf(address)
  {
    if address == "" {
      return None;
    }
    var parts := Split(address, '/');
    var longIp: nat;
    if IndexOf(parts[0], '.') > 0 {
      longIp := Ip2Long(parts[0]);
    } else {
      longIp := DigitsValue(parts[0]);
    }
    assert longIp == AddressValue(parts[0]);
    var info := Blank(Long2Ip(longIp));
    if |parts| > 1 {
      var maskBits: nat, longNetmask: nat := 0, 0;
      if IndexOf(parts[1], '.') > 0 {
        longNetmask := Ip2Long(parts[1]);
        maskBits := MaskBitsFromNetmask(longNetmask);
      } else {
        maskBits := DigitsValue(parts[1]);
        longNetmask := CanonicalMask(maskBits);
      }
      assert (maskBits, longNetmask) == MaskOf(parts[1]);
      info := Subnet(longIp, maskBits, longNetmask);
    }
    return Some(info);
  }

  // ---------------------------------------------------------------- what the calculator derives

  /** The class follows the leading bits of the first octet, as in section 3.2 of RFC 791: 0, 10, 110. */
  lemma ClassByLeadingBits(firstOctet: nat)
    requires firstOctet < 0x100
    ensures ClassOf(firstOctet) == Some(A) <==> !Bit(firstOctet, 7)
    ensures ClassOf(firstOctet) == Some(B) <==> Bit(firstOctet, 7) && !Bit(firstOctet, 6)
    ensures ClassOf(firstOctet) == Some(C) <==> Bit(firstOctet, 7) && Bit(firstOctet, 6) && !Bit(firstOctet, 5)
    ensures ClassOf(firstOctet) == None <==> Bit(firstOctet, 7) && Bit(firstOctet, 6) && Bit(firstOctet, 5)
  {
    assert Pow2(5) == 32 && Pow2(6) == 64 && Pow2(7) == 128;
    BitOfQuotient(firstOctet, 7);
    BitOfQuotient(firstOctet, 6);
    BitOfQuotient(firstOctet, 5);
    var q := firstOctet / 32;
    assert firstOctet / 64 == q / 2 && firstOctet / 128 == q / 4 && q < 8;
  }

  /** The text `address/mask` splits into exactly the two parts. */
  lemma SplitAddressMask(address: string, mask: string)
    requires '/' !in address && '/' !in mask
    ensures Split(address + "/" + mask, '/') == [address, mask]
  {
    SplitAtSeparator(address, mask, '/');
    SplitWithoutSeparator(mask, '/');
  }

  /** A decimal prefix length is a valid mask part and reads as its canonical mask. */
  lemma PrefixPart(n: nat)
    requires n <= 32
    ensures ValidMaskPart(NatToString(n)) && '/' !in NatToString(n)
    ensures MaskOf(NatToString(n)) == (n, CanonicalMask(n))
  {
    NumeralHasNoDelimiter(NatToString(n));
    NumeralRoundTrip(n);
  }

  /** The dotted text of a 32-bit value has a dot after a non-empty first part and no slash. */
  lemma DottedTextShape(v: int)
    requires 0 <= v < Two32
    ensures ValidDotted(Long2Ip(v)) && IndexOf(Long2Ip(v), '.') > 0 && '/' !in Long2Ip(v)
  {
    Long2IpRoundTrip(v);
    var parts := [IntToString(Octet(v, 0x100_0000)), IntToString(Octet(v, 0x1_0000)),
                  IntToString(Octet(v, 0x100)), IntToString(Octet(v, 1))];
    forall i | 0 <= i < 4 ensures |parts[i]| > 0 && '.' !in parts[i] && '/' !in parts[i] {
      NumeralHasNoDelimiter(parts[i]);
    }
    JoinedShape(parts);
  }

  /** Four non-empty parts without dots or slashes, joined with dots: the first dot follows the first part. */
  lemma JoinedShape(parts: seq<string>)
    requires |parts| == 4 && forall i :: 0 <= i < 4 ==> |parts[i]| > 0 && '.' !in parts[i] && '/' !in parts[i]
    ensures IndexOf(Join(parts, '.'), '.') > 0 && '/' !in Join(parts, '.')
  {
    JoinAvoids(parts, '.', '/');
    assert Join(parts, '.') == parts[0] + ['.'] + Join(parts[1..], '.');
    IndexOfAfter(parts[0], '.', Join(parts[1..], '.'));
  }

  /** An argument without a slash sets only `address`, normalised through `long2ip`; every other field is null. */
  lemma AddressOnly(address: string)
    requires ValidAddressPart(address) && '/' !in address
    ensures ValidInput(address)
    ensures var r := AddressInfoOf(address);
      r.Some? && r.value.address == Long2Ip(AddressValue(address)) &&
      r.value.netmask == None && r.value.cidr == None && r.value.hostmask == None &&
      r.value.network == None && r.value.addressClass == None && r.value.broadcast == None &&
      r.value.size == None && r.value.first == None && r.value.last == None
  {
    SplitWithoutSeparator(address, '/');
  }

  /** With a mask part, the subnet fields are derived from the address value and the mask part's (bits, netmask). */
  lemma AddressWithMask(address: string, mask: string)
    requires ValidAddressPart(address) && '/' !in address
    requires ValidMaskPart(mask) && '/' !in mask
    ensures ValidInput(address + "/" + mask)
    ensures AddressInfoOf(address + "/" + mask) ==
      Some(Subnet(AddressValue(address), MaskOf(mask).0, MaskOf(mask).1))
  {
    SplitAddressMask(address, mask);
  }

  /** `address/n` for a prefix length `n` in 1..32 is the subnet record of the mask of the top `n` bits. */
  lemma AddressWithPrefix(address: string, n: nat)
    requires ValidAddressPart(address) && '/' !in address && 1 <= n <= 32
    ensures ValidInput(address + "/" + NatToString(n))
    ensures AddressInfoOf(address + "/" + NatToString(n)) == Some(Subnet(AddressValue(address), n, HighMask(32, 32 - n)))
  {
    PrefixPart(n);
    AddressWithMask(address, NatToString(n));
    CanonicalMaskValue(n);
  }

  /**
   * A prefix length `n` in 1..32 (section 3.1 of RFC 4632): the netmask has exactly the top `n`
   * of 32 bits set, the hostmask is its 32-bit complement, and the network is the address AND
   * the netmask, which clears the low `32 - n` bits of the address; the size is `2^(32 - n)`.
   */
  lemma PrefixMask(ip: nat, n: nat)
    requires ip < Two32 && 1 <= n <= 32
    ensures var v := ValuesOf(ip, n, HighMask(32, 32 - n));
      v.cidr == n &&
      v.size == Pow2(32 - n) &&
      0 <= v.hostmask == Two32 - 1 - v.netmask &&
      v.network == ip - ip % Pow2(32 - n) &&
      forall k: nat :: k < 32 ==>
        (Bit(v.netmask, k) <==> 32 - n <= k) &&
        (Bit(v.hostmask, k) <==> !Bit(v.netmask, k)) &&
        (Bit(v.network, k) <==> Bit(ip, k) && Bit(v.netmask, k))
  {
    var netmask := HighMask(32, 32 - n);
    Pow2Of32();
    Pow2Monotone(32 - n, 31);
    assert Not32(netmask) == Two32 - 1 - netmask;
    forall k: nat | k < 32
      ensures (Bit(netmask, k) <==> 32 - n <= k) &&
        (Bit(Two32 - 1 - netmask, k) <==> !Bit(netmask, k)) &&
        (Bit(BitAnd(ip, netmask, 32), k) <==> Bit(ip, k) && Bit(netmask, k))
    {
      HighMaskBits(32, 32 - n, k);
      ComplementBits(netmask, 32, k);
      BitAndBits(ip, netmask, 32, k);
    }
    AndHighMask(ip, 32, 32 - n);
  }

  /**
   * A prefix length `n` in 1..30: broadcast is network + size - 1, which is also network OR hostmask;
   * the first usable host is network + 1 and the last network + size - 2, so
   * network < first <= last < broadcast < 2^32, and the address lies in the block.
   */
  lemma HostRange(ip: nat, n: nat)
    requires ip < Two32 && 1 <= n <= 30
    ensures var v := ValuesOf(ip, n, HighMask(32, 32 - n));
      v.hostmask >= 0 &&
      v.broadcast == Some(v.network + v.size - 1) &&
      v.network + v.size - 1 == BitOr(v.network, v.hostmask, 32) &&
      v.first == v.network + 1 &&
      v.last == v.network + v.size - 2 &&
      v.network < v.first <= v.last < v.broadcast.value < Two32 &&
      v.network <= ip <= v.broadcast.value
  {
    var s := 32 - n;
    Pow2Of32();
    Pow2Monotone(s, 31);
    Block(ip, s);
    Pow2Monotone(2, s);
    assert Pow2(2) == 4;
  }

  /** Prefix lengths 31 and 32 have no broadcast; first is the network and last is network + size - 1; for /32 both are the address. */
  lemma PointToPoint(ip: nat, n: nat)
    requires ip < Two32 && 31 <= n <= 32
    ensures var v := ValuesOf(ip, n, HighMask(32, 32 - n));
      v.broadcast == None &&
      v.first == v.network &&
      v.last == v.network + v.size - 1 &&
      (n == 32 ==> v.first == v.last == ip)
  {
    Pow2Of32();
    AndHighMask(ip, 32, 32 - n);
  }

  /** `address/0`: a shift count of 32 is taken as 0, so the netmask is all ones, not zero. */
  lemma AddressWithZeroPrefix(address: string)
    requires ValidAddressPart(address) && '/' !in address
    ensures ValidInput(address + "/" + NatToString(0))
    ensures AddressInfoOf(address + "/" + NatToString(0)) == Some(Subnet(AddressValue(address), 0, Two32 - 1))
  {
    PrefixPart(0);
    AddressWithMask(address, NatToString(0));
    ZeroPrefixMask();
  }

  /**
   * Prefix length 0 with the all-ones netmask: the hostmask is zero, the network is the address
   * itself and the size 2^32; first is address + 1, broadcast address + 2^32 - 1 and last
   * address + 2^32 - 2, which `long2ip` prints modulo 2^32.
   */
  lemma ZeroPrefix(ip: nat)
    requires ip < Two32
    ensures var v := ValuesOf(ip, 0, Two32 - 1);
      v.cidr == 0 && v.hostmask == 0 && v.network == ip && v.size == Two32 &&
      v.broadcast == Some(ip + Two32 - 1) && v.first == ip + 1 && v.last == ip + Two32 - 2
  {
    Pow2Of32();
    AndAllOnes(ip, 32);
  }

  /** The `/0` record reads netmask 255.255.255.255 and hostmask 0.0.0.0, and its broadcast wraps to the address before `ip`. */
  lemma ZeroPrefixText(ip: nat)
    requires ip < Two32
    ensures var r := Subnet(ip, 0, Two32 - 1);
      r.netmask == Some(DottedQuad(255, 255, 255, 255)) && r.hostmask == Some(DottedQuad(0, 0, 0, 0)) &&
      r.broadcast == Some(Long2Ip((ip + Two32 - 1) % Two32))
  {
    ZeroPrefix(ip);
    MaskTexts();
    Long2IpWraps(ip + Two32 - 1);
  }

  lemma MaskTexts()
    ensures Long2Ip(Two32 - 1) == DottedQuad(255, 255, 255, 255)
    ensures Long2Ip(0) == DottedQuad(0, 0, 0, 0)
  {
    Long2IpOfBytes(Two32 - 1, 255, 255, 255, 255);
    Long2IpOfBytes(0, 0, 0, 0, 0);
  }

  /**
   * Every record: the subnet fields are set exactly when a mask part is present; then the cidr is
   * at most 32, the size is `2^(32 - cidr)`, and a broadcast exists exactly when the cidr is at most 30.
   */
  lemma RecordShape(address: string)
    requires ValidInput(address) && address != ""
    ensures AddressInfoOf(address).Some?
    ensures var r, masked := AddressInfoOf(address).value, |Split(address, '/')| > 1;
      (r.cidr.Some? <==> masked) && (r.netmask.Some? <==> masked) && (r.hostmask.Some? <==> masked) &&
      (r.network.Some? <==> masked) && (r.size.Some? <==> masked) &&
      (r.first.Some? <==> masked) && (r.last.Some? <==> masked) &&
      (!masked ==> r.addressClass == None && r.broadcast == None) &&
      (masked ==> r.cidr.value <= 32 && r.size == Some(Pow2(32 - r.cidr.value)) &&
                  (r.broadcast.Some? <==> r.cidr.value <= 30))
  {
  }

  /** A dotted netmask equal to the mask of a length `n` in 1..31 gives the same record as `/n`. */
  lemma CanonicalDottedMask(address: string, mask: string, n: nat)
    requires ValidAddressPart(address) && '/' !in address
    requires ValidDotted(mask) && IndexOf(mask, '.') > 0 && '/' !in mask
    requires 1 <= n <= 31 && Ip2LongValue(mask) == CanonicalMask(n)
    ensures ValidInput(address + "/" + mask) && ValidInput(address + "/" + NatToString(n))
    ensures AddressInfoOf(address + "/" + mask) == AddressInfoOf(address + "/" + NatToString(n))
  {
    AddressWithMask(address, mask);
    MaskBitsOfCanonical(n);
    AddressWithPrefix(address, n);
    CanonicalMaskValue(n);
  }

  /**
   * A dotted netmask that is no prefix length's mask (a non-contiguous one such as 255.0.255.0)
   * raises no error: the prefix length stays 0, so the size is 2^32, and the netmask is used as given.
   */
  lemma NonCanonicalDottedMask(address: string, mask: string)
    requires ValidAddressPart(address) && '/' !in address
    requires ValidDotted(mask) && IndexOf(mask, '.') > 0 && '/' !in mask
    requires forall i :: 0 <= i < 32 ==> CanonicalMask(i) != Ip2LongValue(mask)
    ensures ValidInput(address + "/" + mask)
    ensures AddressInfoOf(address + "/" + mask) == Some(Subnet(AddressValue(address), 0, Ip2LongValue(mask)))
    ensures ValuesOf(AddressValue(address), 0, Ip2LongValue(mask)).size == Two32
  {
    AddressWithMask(address, mask);
    Pow2Of32();
  }

  /** For `n` in 1..31, the netmask text the calculator prints for `/n`, given back as a dotted mask, yields the same record. */
  lemma NetmaskRoundTrip(address: string, n: nat)
    requires ValidAddressPart(address) && '/' !in address && 1 <= n <= 31
    ensures ValidInput(address + "/" + NatToString(n))
    ensures var mask := AddressInfoOf(address + "/" + NatToString(n)).value.netmask;
      mask.Some? && ValidInput(address + "/" + mask.value) &&
      AddressInfoOf(address + "/" + mask.value) == AddressInfoOf(address + "/" + NatToString(n))
  {
    var m := HighMask(32, 32 - n);
    AddressWithPrefix(address, n);
    DottedTextShape(m);
    Long2IpRoundTrip(m);
    CanonicalMaskValue(n);
    CanonicalDottedMask(address, Long2Ip(m), n);
  }

  /** 255.255.255.255 is a dotted mask part that reads as prefix length 0 with the all-ones netmask. */
  lemma AllOnesMaskPart()
    ensures var mask := DottedQuad(255, 255, 255, 255);
      ValidMaskPart(mask) && '/' !in mask && MaskOf(mask) == (0, Two32 - 1) && Long2Ip(Two32 - 1) == mask
  {
    QuadParts(255, 255, 255, 255);
    MaskTexts();
    DottedTextShape(Two32 - 1);
    ZeroPrefixMask();
    MaskBitsOfCanonical(0);
  }

  /**
   * The round trip fails at 32: `/32` prints the netmask 255.255.255.255, and that dotted mask
   * matches the search at `i = 0` (shift counts are taken modulo 32), giving prefix length 0 and size 2^32.
   */
  lemma AllOnesDottedMask(address: string)
    requires ValidAddressPart(address) && '/' !in address
    ensures ValidInput(address + "/" + NatToString(32))
    ensures var mask := DottedQuad(255, 255, 255, 255);
      var r := AddressInfoOf(address + "/" + NatToString(32)).value;
      r.netmask == Some(mask) && r.cidr == Some(32) && r.size == Some(1) &&
      ValidInput(address + "/" + mask) &&
      AddressInfoOf(address + "/" + mask).value.cidr == Some(0) &&
      AddressInfoOf(address + "/" + mask).value.size == Some(Two32)
  {
    var mask := DottedQuad(255, 255, 255, 255);
    Pow2Of32();
    AllOnesMaskPart();
    AddressWithPrefix(address, 32);
    AddressWithMask(address, mask);
  }

  /** The dotted text of a 32-bit value, with a mask, keeps its text and is classed by its first octet `v / 2^24`. */
  lemma DottedAddressClass(v: nat, mask: string)
    requires v < Two32
    requires ValidMaskPart(mask) && '/' !in mask
    ensures ValidInput(Long2Ip(v) + "/" + mask)
    ensures var r := AddressInfoOf(Long2Ip(v) + "/" + mask).value;
      r.address == Long2Ip(v) && r.addressClass == ClassOf(v / 0x100_0000)
  {
    DottedTextShape(v);
    Long2IpRoundTrip(v);
    AddressWithMask(Long2Ip(v), mask);
  }
}

=== FILE: bits.dfy ===
/**
 * JavaScript's 32-bit integer operators, stated in plain integer arithmetic.
 * JavaScript converts the operands of `<<`, `&`, `|` and `~` to 32-bit integers,
 * takes shift counts modulo 32, and `>>> 0` reads a result back as unsigned.
 * Bit `k` of a value is its `k`-th binary digit, counted from the least significant.
 */
module Bits {

  const Two32: nat := 0x1_0000_0000

  function Pow2(k: nat): (r: nat)
    ensures r > 0
  {
    if k == 0 then 1 else 2 * Pow2(k - 1)
  }

  /** The `k`-th binary digit of `x`. */
  predicate Bit(x: nat, k: nat)
  {
    if k == 0 then x % 2 == 1 else Bit(x / 2, k - 1)
  }

  /** `(x << count) >>> 0` for an unsigned 32-bit `x`: the count is taken modulo 32 and high bits fall off. */
  function ShiftLeft32(x: nat, count: int): (r: nat)
    requires x < Two32
    ensures r < Two32
  {
    (x * Pow2(count % 32)) % Two32
  }

  /**
   * `~x` for an unsigned 32-bit `x`: the complemented bit pattern, read back as a
   * signed 32-bit integer, so it is negative whenever bit 31 of `x` is clear.
   */
  function Not32(x: nat): (r: int)
    requires x < Two32
    ensures -0x8000_0000 <= r < 0x8000_0000
    ensures r % Two32 == Two32 - 1 - x
    ensures r < 0 <==> x < 0x8000_0000
  {
    var signed := if x < 0x8000_0000 then x else x - Two32;
    -signed - 1
  }

  /** `a & b` on the low `width` bits, digit by digit. */
  function BitAnd(a: nat, b: nat, width: nat): (r: nat)
    ensures r < Pow2(width)
  {
    if width == 0 then 0
    else 2 * BitAnd(a / 2, b / 2, width - 1) + (if a % 2 == 1 && b % 2 == 1 then 1 else 0)
  }

  /** `a | b` on the low `width` bits, digit by digit. */
  function BitOr(a: nat, b: nat, width: nat): (r: nat)
    ensures r < Pow2(width)
  {
    if width == 0 then 0
    else 2 * BitOr(a / 2, b / 2, width - 1) + (if a % 2 == 1 || b % 2 == 1 then 1 else 0)
  }

  lemma Pow2Of32()
    ensures Pow2(31) == 0x8000_0000
    ensures Pow2(32) == Two32
  {
    assert Pow2(1) == 2;
    assert Pow2(2) == 4;
    assert Pow2(3) == 8;
    assert Pow2(4) == 16;
    assert Pow2(5) == 32;
    assert Pow2(6) == 64;
    assert Pow2(7) == 128;
    assert Pow2(8) == 256;
    assert Pow2(9) == 512;
    assert Pow2(10) == 1024;
    assert Pow2(11) == 2048;
    assert Pow2(12) == 4096;
    assert Pow2(13) == 8192;
    assert Pow2(14) == 16384;
    assert Pow2(15) == 32768;
    assert Pow2(16) == 65536;
    assert Pow2(17) == 131072;
    assert Pow2(18) == 262144;
    assert Pow2(19) == 524288;
    assert Pow2(20) == 1048576;
    assert Pow2(21) == 2097152;
    assert Pow2(22) == 4194304;
    assert Pow2(23) == 8388608;
    assert Pow2(24) == 16777216;
    assert Pow2(25) == 33554432;
    assert Pow2(26) == 67108864;
    assert Pow2(27) == 134217728;
    assert Pow2(28) == 268435456;
    assert Pow2(29) == 536870912;
    assert Pow2(30) == 1073741824;
    assert Pow2(31) == 2147483648;
    assert Pow2(32) == 4294967296;
  }

  lemma {:induction false} Pow2Add(a: nat, b: nat)
    ensures Pow2(a + b) == Pow2(a) * Pow2(b)
  {
    if a > 0 {
      Pow2Add(a - 1, b);
    }
  }

  lemma Pow2Injective(a: nat, b: nat)
    requires a != b
    ensures Pow2(a) != Pow2(b)
  {
    if a < b { Pow2Monotone(a, b); } else { Pow2Monotone(b, a); }
  }

  lemma Pow2AtMost32(w: nat)
    ensures w <= 32 ==> Pow2(w) <= Two32
  {
    if w <= 32 {
      Pow2Monotone(w, 32);
      Pow2Of32();
    }
  }

  lemma {:induction false} Pow2Monotone(a: nat, b: nat)
    requires a <= b
    ensures Pow2(a) <= Pow2(b)
    ensures a < b ==> Pow2(a) < Pow2(b)
  {
    if a < b {
      Pow2Monotone(a, b - 1);
    }
  }

  lemma MultiplyMonotone(p: nat, a: int, b: int)
    requires a <= b
    ensures p * a <= p * b
  {
    if p > 0 && a < b {
      MultipleBounds(p, b - a);
      assert p * b - p * a == p * (b - a);
    }
  }

  /** Quotient and remainder are the unique pair that rebuilds `x`. */
  lemma DivModUnique(x: int, d: int, q: int, r: int)
    requires d > 0 && 0 <= r < d && x == d * q + r
    ensures x / d == q && x % d == r
  {
    var q', r' := x / d, x % d;
    assert x == d * q' + r';
    var k := q - q';
    assert d * k == r' - r;
    MultipleBounds(d, k);
  }

  lemma {:induction false} MultipleBounds(d: int, k: int)
    requires d > 0
    ensures k >= 1 ==> d * k >= d
    ensures k <= -1 ==> d * k <= -d
    decreases if k < 0 then -k else k
  {
    if k > 1 {
      MultipleBounds(d, k - 1);
      assert d * k == d * (k - 1) + d;
    } else if k < -1 {
      MultipleBounds(d, k + 1);
      assert d * k == d * (k + 1) - d;
    }
  }

  /** Splitting off the lowest binary digit of a remainder modulo an even number. */
  lemma ModDouble(a: nat, p: nat)
    requires p > 0
    ensures a % (2 * p) == 2 * ((a / 2) % p) + a % 2
    ensures a / (2 * p) == (a / 2) / p
  {
    var h := a / 2;
    var q, r := h / p, h % p;
    assert a == 2 * h + a % 2;
    assert h == p * q + r;
    assert a == (2 * p) * q + (2 * r + a % 2);
    DivModUnique(a, 2 * p, q, 2 * r + a % 2);
  }

  lemma {:induction false} AllOnesBits(w: nat, k: nat)
    requires k < w
    ensures Bit(Pow2(w) - 1, k)
  {
    if k > 0 {
      AllOnesBits(w - 1, k - 1);
      assert (Pow2(w) - 1) / 2 == Pow2(w - 1) - 1;
    }
  }

  /** The bits `s .. w-1` of a `w`-bit number set, the others clear: `2^w - 2^s`. */
  function HighMask(w: nat, s: nat): (m: nat)
    requires s <= w
    ensures m < Pow2(w)
    ensures w <= 32 ==> m < Two32
  {
    Pow2Monotone(s, w);
    Pow2AtMost32(w);
    Pow2(w) - Pow2(s)
  }

  /** `2^w - 2^s` has exactly the bits `s .. w-1` set: the top `w - s` of `w` bits. */
  lemma {:induction false} HighMaskBits(w: nat, s: nat, k: nat)
    requires s <= w && k < w
    ensures Bit(HighMask(w, s), k) <==> s <= k
  {
    Pow2Monotone(s, w);
    if s == 0 {
      AllOnesBits(w, k);
    } else if k > 0 {
      assert (Pow2(w) - Pow2(s)) / 2 == Pow2(w - 1) - Pow2(s - 1);
      HighMaskBits(w - 1, s - 1, k - 1);
    }
  }

  /** `BitAnd` agrees with the bitwise definition of `&`, digit by digit. */
  lemma {:induction false} BitAndBits(a: nat, b: nat, w: nat, k: nat)
    requires k < w
    ensures Bit(BitAnd(a, b, w), k) <==> Bit(a, k) && Bit(b, k)
  {
    if k > 0 {
      BitAndBits(a / 2, b / 2, w - 1, k - 1);
      var r := BitAnd(a, b, w);
      assert r / 2 == BitAnd(a / 2, b / 2, w - 1);
    }
  }

  /** `BitOr` agrees with the bitwise definition of `|`, digit by digit. */
  lemma {:induction false} BitOrBits(a: nat, b: nat, w: nat, k: nat)
    requires k < w
    ensures Bit(BitOr(a, b, w), k) <==> Bit(a, k) || Bit(b, k)
  {
    if k > 0 {
      BitOrBits(a / 2, b / 2, w - 1, k - 1);
      var r := BitOr(a, b, w);
      assert r / 2 == BitOr(a / 2, b / 2, w - 1);
    }
  }

  lemma {:induction false} AndAllOnes(a: nat, w: nat)
    requires a < Pow2(w)
    ensures BitAnd(a, Pow2(w) - 1, w) == a
  {
    if w > 0 {
      assert (Pow2(w) - 1) / 2 == Pow2(w - 1) - 1;
      AndAllOnes(a / 2, w - 1);
    }
  }

  lemma {:induction false} OrZero(a: nat, w: nat)
    requires a < Pow2(w)
    ensures BitOr(a, 0, w) == a
  {
    if w > 0 {
      OrZero(a / 2, w - 1);
    }
  }

  /** Masking with the top `w - s` bits rounds `a` down to a multiple of `2^s`. */
  lemma {:induction false} AndHighMask(a: nat, w: nat, s: nat)
    requires a < Pow2(w) && s <= w
    ensures BitAnd(a, HighMask(w, s), w) == a - a % Pow2(s)
  {
    Pow2Monotone(s, w);
    if s == 0 {
      AndAllOnes(a, w);
    } else {
      var p := Pow2(s - 1);
      assert (Pow2(w) - Pow2(s)) / 2 == Pow2(w - 1) - p;
      assert (Pow2(w) - Pow2(s)) % 2 == 0;
      AndHighMask(a / 2, w - 1, s - 1);
      ModDouble(a, p);
    }
  }

  /** Setting the low `s` bits of a multiple of `2^s` adds `2^s - 1`. */
  lemma {:induction false} OrLowMask(n: nat, w: nat, s: nat)
    requires n < Pow2(w) && s <= w && n % Pow2(s) == 0
    ensures BitOr(n, Pow2(s) - 1, w) == n + Pow2(s) - 1
  {
    Pow2Monotone(s, w);
    if s == 0 {
      OrZero(n, w);
    } else {
      var p := Pow2(s - 1);
      ModDouble(n, p);
      assert (Pow2(s) - 1) / 2 == p - 1;
      assert (Pow2(s) - 1) % 2 == 1;
      OrLowMask(n / 2, w - 1, s - 1);
    }
  }

  /** `0xFFFFFFFF << (32 - n) >>> 0` is the mask of the top `n` bits for `n` in 1..32. */
  lemma CanonicalMaskValue(n: nat)
    requires 1 <= n <= 32
    ensures ShiftLeft32(0xFFFF_FFFF, 32 - n) == HighMask(32, 32 - n)
  {
    var s := 32 - n;
    var p := Pow2(s);
    Pow2Monotone(s, 31);
    Pow2Of32();
    assert s % 32 == s;
    assert 0xFFFF_FFFF * p == Two32 * (p - 1) + (Two32 - p);
    DivModUnique(0xFFFF_FFFF * p, Two32, p - 1, Two32 - p);
  }

  /** `2^w - 1 - m` is the `w`-bit complement of `m`: each of its low `w` bits is the opposite of `m`'s. */
  lemma {:induction false} ComplementBits(m: nat, w: nat, k: nat)
    requires m < Pow2(w) && k < w
    ensures Bit(Pow2(w) - 1 - m, k) <==> !Bit(m, k)
  {
    assert (Pow2(w) - 1 - m) / 2 == Pow2(w - 1) - 1 - m / 2;
    if k > 0 {
      ComplementBits(m / 2, w - 1, k - 1);
    }
  }

  /** Bit `k` is the parity of the quotient by `2^k`. */
  lemma {:induction false} BitOfQuotient(x: nat, k: nat)
    ensures Bit(x, k) <==> (x / Pow2(k)) % 2 == 1
  {
    if k > 0 {
      BitOfQuotient(x / 2, k - 1);
      ModDouble(x, Pow2(k - 1));
    }
  }

  /** Rounding down to a multiple of `2^s` keeps a 32-bit value's whole block of `2^s` below 2^32. */
  lemma BlockBounds(ip: nat, s: nat)
    requires ip < Two32 && s <= 32
    ensures var p := Pow2(s); var network := ip - ip % p;
      network % p == 0 && network <= ip < network + p <= Two32
  {
    Pow2Add(s, 32 - s);
    Pow2Of32();
    BlockStep(ip, Pow2(s), Pow2(32 - s));
  }

  lemma BlockStep(ip: nat, p: nat, t: nat)
    requires p > 0 && p * t == Two32 && ip < Two32
    ensures var network := ip - ip % p;
      network % p == 0 && network <= ip < network + p <= Two32
  {
    var q, r := ip / p, ip % p;
    assert ip == p * q + r;
    DivModUnique(p * q, p, q, 0);
    if t < q + 1 {
      MultiplyMonotone(p, t, q);
      assert false;
    }
    MultiplyMonotone(p, q + 1, t);
    assert p * (q + 1) == p * q + p;
  }

  /**
   * The block of `2^s` addresses around `ip`: masking with the top `32 - s` bits gives its
   * multiple-of-`2^s` start, the block fits below 2^32, and setting the low `s` bits gives its end.
   */
  lemma Block(ip: nat, s: nat)
    requires ip < Two32 && s <= 32
    ensures var p, network := Pow2(s), BitAnd(ip, HighMask(32, s), 32);
      network % p == 0 && network <= ip < network + p <= Two32 &&
      BitOr(network, p - 1, 32) == network + p - 1
  {
    Pow2Of32();
    AndHighMask(ip, 32, s);
    BlockBounds(ip, s);
    OrLowMask(BitAnd(ip, HighMask(32, s), 32), 32, s);
  }

  /** A shift count of 32 is taken as 0, so the "mask of 0 bits" is all ones. */
  lemma ZeroPrefixMask()
    ensures ShiftLeft32(0xFFFF_FFFF, 32) == Two32 - 1
  {
  }
}

=== FILE: collections.dfy ===
/** `Array.prototype.filter` and the order-preserving subsequence relation it produces. */
module Collections {

  /** The elements of `s` that satisfy `p`, in their original order. */
  function Filter<T>(s: seq<T>, p: T -> bool): (r: seq<T>)
    ensures |r| <= |s|
    ensures forall i :: 0 <= i < |r| ==> p(r[i]) && r[i] in s
  {
    if |s| == 0 then []
    else (if p(s[0]) then [s[0]] else []) + Filter(s[1..], p)
  }

  /** `a` can be obtained from `b` by deleting elements, without reordering the rest. */
  predicate IsSubsequence<T(==)>(a: seq<T>, b: seq<T>)
    decreases |b|
  {
    |a| == 0 ||
    (|b| > 0 && ((a[0] == b[0] && IsSubsequence(a[1..], b[1..])) || IsSubsequence(a, b[1..])))
  }

  lemma {:induction false} FilterMembership<T>(s: seq<T>, p: T -> bool, x: T)
    ensures x in Filter(s, p) <==> x in s && p(x)
  {
    if |s| > 0 {
      FilterMembership(s[1..], p, x);
      assert s == [s[0]] + s[1..];
    }
  }

  lemma {:induction false} FilterAppend<T>(a: seq<T>, b: seq<T>, p: T -> bool)
    ensures Filter(a + b, p) == Filter(a, p) + Filter(b, p)
  {
    if |a| == 0 {
      assert a + b == b;
    } else {
      assert (a + b)[1..] == a[1..] + b;
      FilterAppend(a[1..], b, p);
    }
  }

  lemma {:induction false} FilterIsSubsequence<T>(s: seq<T>, p: T -> bool)
    ensures IsSubsequence(Filter(s, p), s)
  {
    if |s| > 0 {
      FilterIsSubsequence(s[1..], p);
      if p(s[0]) {
        assert Filter(s, p) == [s[0]] + Filter(s[1..], p);
        assert Filter(s, p)[1..] == Filter(s[1..], p);
      } else {
        assert Filter(s, p) == Filter(s[1..], p);
      }
    }
  }

  /** Filtering by a predicate `q` that implies `p` after filtering by `p` is filtering by `q`. */
  lemma {:induction false} FilterNarrowing<T>(s: seq<T>, p: T -> bool, q: T -> bool)
    requires forall x :: x in s && q(x) ==> p(x)
    ensures Filter(Filter(s, p), q) == Filter(s, q)
  {
    if |s| > 0 {
      FilterNarrowing(s[1..], p, q);
      assert s[0] in s;
      if p(s[0]) {
        assert Filter(s, p) == [s[0]] + Filter(s[1..], p);
        assert Filter(s, p)[1..] == Filter(s[1..], p);
      } else {
        assert !q(s[0]);
        assert Filter(s, p) == Filter(s[1..], p);
      }
    }
  }

  lemma {:induction false} FilterKeepsAll<T>(s: seq<T>, p: T -> bool)
    requires forall i :: 0 <= i < |s| ==> p(s[i])
    ensures Filter(s, p) == s
  {
    if |s| > 0 {
      FilterKeepsAll(s[1..], p);
      assert s == [s[0]] + s[1..];
    }
  }

  lemma {:induction false} FilterNone<T>(s: seq<T>, p: T -> bool)
    requires forall i :: 0 <= i < |s| ==> !p(s[i])
    ensures Filter(s, p) == []
  {
    if |s| > 0 {
      FilterNone(s[1..], p);
    }
  }

  lemma {:induction false} SubsequenceReflexive<T>(s: seq<T>)
    ensures IsSubsequence(s, s)
  {
    if |s| > 0 {
      SubsequenceReflexive(s[1..]);
    }
  }
}

=== FILE: ipv4_interfaces.dfy ===
/**
 * The interface filter: takes the operating system's interface table (interface name to its
 * address records, in key order), writes each interface's name into its records, flattens the
 * table and keeps the IPv4 records, dropping the internal (loopback) ones on request.
 */
module Ipv4Interfaces {
  import opened Wrappers
  import opened Collections

  /** One address record of an interface; only `name` is written by the filter. */
  class InterfaceRecord {
    const address: string
    const netmask: string
    const family: string
    const mac: string
    const internal: bool
    const cidr: Option<string>
    var name: Option<string>

    constructor (address: string, netmask: string, family: string, mac: string, internal: bool, cidr: Option<string>)
      ensures this.address == address && this.netmask == netmask && this.family == family
      ensures this.mac == mac && this.internal == internal && this.cidr == cidr
      ensures name == None
    {
      this.address := address;
      this.netmask := netmask;
      this.family := family;
      this.mac := mac;
      this.internal := internal;
      this.cidr := cidr;
      name := None;
    }
  }

  /** The table `os.networkInterfaces()` returns: interface names with their records, in key order. */
  type Table = seq<(string, seq<InterfaceRecord>)>

  /** The records of all interfaces, interface by interface: `[].concat.apply([], lists)`. */
  function Flatten(table: Table): seq<InterfaceRecord>
  {
    if |table| == 0 then [] else table[0].1 + Flatten(table[1..])
  }

  /** Every record object occurs once in the table, as in a table freshly built by the operating system. */
  predicate DistinctRecords(table: Table)
  {
    forall i, j, k, l ::
      (0 <= i < |table| && 0 <= j < |table[i].1| && 0 <= k < |table| && 0 <= l < |table[k].1| && (i != k || j != l))
      ==> table[i].1[j] != table[k].1[l]
  }

  function Records(table: Table): set<InterfaceRecord>
  {
    set i, j | 0 <= i < |table| && 0 <= j < |table[i].1| :: table[i].1[j]
  }

  /** The filter's test: an IPv4 record, and not an internal one when internals are excluded. */
  predicate Selected(r: InterfaceRecord, excludeInternals: bool)
  {
    r.family == "IPv4" && !(excludeInternals && r.internal)
  }

  /** The records the exported function returns, in table order. */
  function Ipv4Of(table: Table, excludeInternals: bool): (r: seq<InterfaceRecord>)
    ensures forall k :: 0 <= k < |r| ==> r[k].family == "IPv4" && !(excludeInternals && r[k].internal)
    ensures IsSubsequence(r, Flatten(table))
  {
    FilterIsSubsequence(Flatten(table), (v: InterfaceRecord) => Selected(v, excludeInternals));
    Filter(Flatten(table), (v: InterfaceRecord) => Selected(v, excludeInternals))
  }

  /** A record is in the flattened table exactly when some interface lists it. */
  lemma {:induction false} FlattenMembership(table: Table, x: InterfaceRecord)
    ensures x in Flatten(table) <==> exists i :: 0 <= i < |table| && x in table[i].1
  {
    if |table| > 0 {
      FlattenMembership(table[1..], x);
      if x !in table[0].1 && x in Flatten(table) {
        var i :| 0 <= i < |table[1..]| && x in table[1..][i].1;
        assert x in table[i + 1].1;
      }
      if x !in table[0].1 && x !in Flatten(table[1..]) {
        forall i | 1 <= i < |table| ensures x !in table[i].1 {
          assert table[i] == table[1..][i - 1];
        }
      }
    }
  }

  /** A record is returned exactly when some interface lists it and it passes the test. */
  lemma Ipv4OfMembership(table: Table, excludeInternals: bool, x: InterfaceRecord)
    ensures x in Ipv4Of(table, excludeInternals) <==>
      (exists i :: 0 <= i < |table| && x in table[i].1) && x.family == "IPv4" && !(excludeInternals && x.internal)
  {
    FilterMembership(Flatten(table), (v: InterfaceRecord) => Selected(v, excludeInternals), x);
    FlattenMembership(table, x);
  }

  /** Without exclusion, every IPv4 record of every interface is returned, internal ones included. */
  lemma Ipv4OfComplete(table: Table)
    ensures forall i, j :: 0 <= i < |table| && 0 <= j < |table[i].1| && table[i].1[j].family == "IPv4" ==>
      table[i].1[j] in Ipv4Of(table, false)
  {
    forall i, j | 0 <= i < |table| && 0 <= j < |table[i].1| && table[i].1[j].family == "IPv4"
      ensures table[i].1[j] in Ipv4Of(table, false)
    {
      Ipv4OfMembership(table, false, table[i].1[j]);
    }
  }

  /**
   * The exported function: name every record after its interface, in place, then return the
   * selected records of the flattened table; each returned record carries the name of the interface listing it.
   */
  method GetIpv4Interfaces(table: Table, excludeInternals: bool) returns (result: seq<InterfaceRecord>)
    requires DistinctRecords(table)
    modifies Records(table)
    ensures forall i, j :: 0 <= i < |table| && 0 <= j < |table[i].1| ==> table[i].1[j].name == Some(table[i].0)
    ensures result == Ipv4Of(table, excludeInternals)
    ensures forall k :: 0 <= k < |result| ==>
      exists i :: 0 <= i < |table| && result[k] in table[i].1 && result[k].name == Some(table[i].0)
  {
    for i := 0 to |table|
      invariant forall a, b :: 0 <= a < i && 0 <= b < |table[a].1| ==> table[a].1[b].name == Some(table[a].0)
    {
      var name, values := table[i].0, table[i].1;
      for j := 0 to |values|
        invariant forall a, b :: 0 <= a < i && 0 <= b < |table[a].1| ==> table[a].1[b].name == Some(table[a].0)
        invariant forall b :: 0 <= b < j ==> values[b].name == Some(name)
      {
        assert values[j] == table[i].1[j];
        values[j].name := Some(name);
      }
    }
    result := Ipv4Of(table, excludeInternals);
    forall k | 0 <= k < |result|
      ensures exists i :: 0 <= i < |table| && result[k] in table[i].1 && result[k].name == Some(table[i].0)
    {
      Ipv4OfMembership(table, excludeInternals, result[k]);
      var i :| 0 <= i < |table| && result[k] in table[i].1;
      var j :| 0 <= j < |table[i].1| && table[i].1[j] == result[k];
    }
  }
}

=== FILE: service_discover.dfy ===
/**
 * The discovery engine: it announces the configured services by UDP broadcast on every local
 * IPv4 interface, listens for the announcements of other hosts, and keeps a registry of the
 * services it has heard of, forgetting those not heard of within the purge window.
 *
 * The socket, the timer, the clock and the operating system are outside the model: the
 * engine's socket and timer are reduced to whether they exist (and the timer's period), and the
 * operations take the current time in milliseconds, the outcome of the bind, the interface table
 * and the host's name and uptimes as arguments.
 */
module ServiceDiscover {
  import opened Wrappers
  import opened Collections
  import AddressInformation
  import Ipv4Interfaces

  /** A service this host advertises. */
  datatype ServiceDescriptor = ServiceDescriptor(name: string, port: int, secure: bool, path: string)

  /** The payload of one broadcast datagram (sent as JSON). */
  datatype Announcement = Announcement(
    hostname: string, scope: string, uptimeOs: int, uptimeProc: int, service: seq<ServiceDescriptor>)

  /** A registry entry: one service of one sender, stamped with the time it was last heard of. */
  datatype Entry = Entry(
    hostname: string, service: string, scope: string, address: string, port: int, path: string,
    uptimeOs: int, uptimeProc: int, lastSeen: int)

  /** A datagram handed to the socket: the payload, to a broadcast address and the configured port. */
  datatype Datagram = Datagram(address: string, port: int, message: Announcement)

  /** What `start` reports through its callback: an unknown option, or the socket once it is bound. */
  datatype StartCallback = UnknownOption(key: string) | Ready

  datatype Fault = TypeError(message: string) | ReferenceError(message: string)

  /** A JavaScript evaluation that either yields a value or throws. */
  datatype Outcome<T> = Success(value: T) | Failure(fault: Fault)

  // ---------------------------------------------------------------- options

  /** A value passed in the options object; `Callback(false)` is a non-callable, falsy handler and `Null` is `null` or `undefined`. */
  datatype OptionValue =
    | Null
    | Num(n: int)
    | Str(s: string)
    | Bool(b: bool)
    | Services(list: seq<ServiceDescriptor>)
    | Callback(callable: bool)

  /**
   * The engine's options: the eight documented keys (the handlers reduced to whether they are
   * set) and, in order, the unknown keys `Object.assign` copies in beside them.
   */
  datatype Options = Options(
    port: int, advertise: int, purge: int, scope: string, loopback: bool,
    service: seq<ServiceDescriptor>, onError: bool, onChange: bool,
    extras: seq<(string, OptionValue)>)

  /** The keys of the defaults object, and every other key. */
  datatype OptionKey = PortKey | AdvertiseKey | PurgeKey | ScopeKey | LoopbackKey | ServiceKey | ErrorKey | ChangeKey | OtherKey

  function KeyOf(name: string): OptionKey
  {
    if name == "port" then PortKey
    else if name == "advertise" then AdvertiseKey
    else if name == "purge" then PurgeKey
    else if name == "scope" then ScopeKey
    else if name == "loopback" then LoopbackKey
    else if name == "service" then ServiceKey
    else if name == "error" then ErrorKey
    else if name == "change" then ChangeKey
    else OtherKey
  }

  /** Port 1993, announce every 10 seconds, forget after 60 seconds, empty scope, loopback included. */
  const Defaults: Options := Options(1993, 10, 60, "", true, [], true, true, [])

  /** A documented key carries a value of its kind; unknown keys may carry anything. */
  predicate Typed(key: string, v: OptionValue)
  {
    match KeyOf(key)
    case PortKey => v.Num?
    case AdvertiseKey => v.Num?
    case PurgeKey => v.Num?
    case ScopeKey => v.Str?
    case LoopbackKey => v.Bool?
    case ServiceKey => v.Services?
    case ErrorKey => v.Callback?
    case ChangeKey => v.Callback?
    case OtherKey => true
  }

  predicate AllTyped(supplied: seq<(string, OptionValue)>)
  {
    forall i :: 0 <= i < |supplied| ==> Typed(supplied[i].0, supplied[i].1)
  }

  /** The value the last occurrence of `key` carries, if any. */
  function Lookup(pairs: seq<(string, OptionValue)>, key: string): (r: Option<OptionValue>)
    ensures r.Some? <==> exists i :: 0 <= i < |pairs| && pairs[i].0 == key
    ensures r.Some? ==> exists i :: 0 <= i < |pairs| && pairs[i] == (key, r.value) &&
                                    (forall j :: i < j < |pairs| ==> pairs[j].0 != key)
  {
    if |pairs| == 0 then None
    else if pairs[|pairs| - 1].0 == key then Some(pairs[|pairs| - 1].1)
    else
      var r := Lookup(pairs[..|pairs| - 1], key);
      assert forall i :: 0 <= i < |pairs| - 1 ==> pairs[..|pairs| - 1][i] == pairs[i];
      r
  }

  /** Reading property `key` of the options object. */
  function Field(o: Options, key: string): Option<OptionValue>
  {
    match KeyOf(key)
    case PortKey => Some(Num(o.port))
    case AdvertiseKey => Some(Num(o.advertise))
    case PurgeKey => Some(Num(o.purge))
    case ScopeKey => Some(Str(o.scope))
    case LoopbackKey => Some(Bool(o.loopback))
    case ServiceKey => Some(Services(o.service))
    case ErrorKey => Some(Callback(o.onError))
    case ChangeKey => Some(Callback(o.onChange))
    case OtherKey => Lookup(o.extras, key)
  }

  /** Assigning property `key`. */
  function Assign(o: Options, key: string, v: OptionValue): Options
    requires Typed(key, v)
  {
    match KeyOf(key)
    case PortKey => o.(port := v.n)
    case AdvertiseKey => o.(advertise := v.n)
    case PurgeKey => o.(purge := v.n)
    case ScopeKey => o.(scope := v.s)
    case LoopbackKey => o.(loopback := v.b)
    case ServiceKey => o.(service := v.list)
    case ErrorKey => o.(onError := v.callable)
    case ChangeKey => o.(onChange := v.callable)
    case OtherKey => o.(extras := o.extras + [(key, v)])
  }

  /** `Object.assign({}, o, supplied)`: the supplied keys assigned in order over `o`. */
  function Merge(o: Options, supplied: seq<(string, OptionValue)>): Options
    requires AllTyped(supplied)
  {
    if |supplied| == 0 then o
    else
      var (key, v) := supplied[|supplied| - 1];
      Assign(Merge(o, supplied[..|supplied| - 1]), key, v)
  }

  /** Assigning a property changes what that property reads and nothing else. */
  lemma FieldAfterAssign(o: Options, key: string, v: OptionValue, k: string)
    requires Typed(key, v)
    ensures Field(Assign(o, key, v), k) == if k == key then Some(v) else Field(o, k)
  {
    if KeyOf(key) == OtherKey {
      var extras := o.extras + [(key, v)];
      assert extras[..|extras| - 1] == o.extras;
    }
  }

  /** Every property of the merged options reads the last supplied value for it, or else the default's. */
  lemma {:induction false} MergeOverrides(o: Options, supplied: seq<(string, OptionValue)>, k: string)
    requires AllTyped(supplied)
    ensures Field(Merge(o, supplied), k) == if Lookup(supplied, k).Some? then Lookup(supplied, k) else Field(o, k)
  {
    if |supplied| > 0 {
      var init := supplied[..|supplied| - 1];
      var (key, v) := supplied[|supplied| - 1];
      MergeOverrides(o, init, k);
      FieldAfterAssign(Merge(o, init), key, v, k);
    }
  }

  /** A supplied key that is not one of the defaults' keys. */
  predicate IsUnknown(option: (string, OptionValue))
  {
    KeyOf(option.0) == OtherKey
  }

  /** The keys of an options object: `Object.keys` never lists a key twice. */
  predicate DistinctKeys(supplied: seq<(string, OptionValue)>)
  {
    forall i, j :: 0 <= i < j < |supplied| ==> supplied[i].0 != supplied[j].0
  }

  /** The callbacks `start` makes for the keys it does not know: one per such key, in the order they were supplied. */
  function UnknownOptionReports(supplied: seq<(string, OptionValue)>): (r: seq<StartCallback>)
    ensures var unknown := Filter(supplied, IsUnknown);
      |r| == |unknown| && forall k :: 0 <= k < |r| ==> r[k] == UnknownOption(unknown[k].0)
    ensures forall c :: c in r ==>
      c.UnknownOption? && KeyOf(c.key) == OtherKey && exists i :: 0 <= i < |supplied| && supplied[i].0 == c.key
    ensures forall i :: 0 <= i < |supplied| && KeyOf(supplied[i].0) == OtherKey ==> UnknownOption(supplied[i].0) in r
  {
    if |supplied| == 0 then []
    else
      var init, last := supplied[..|supplied| - 1], supplied[|supplied| - 1];
      assert forall i :: 0 <= i < |init| ==> init[i] == supplied[i];
      assert supplied == init + [last];
      FilterAppend(init, [last], IsUnknown);
      assert Filter([last], IsUnknown) == if IsUnknown(last) then [last] else [];
      UnknownOptionReports(init) + if IsUnknown(last) then [UnknownOption(last.0)] else []
  }

  /** The announcement interval raised to at least 5000 (seconds, the unit the timer uses). */
  function Clamped(o: Options): (r: Options)
    ensures r.advertise >= 5000 && r.advertise >= o.advertise
    ensures r.advertise == 5000 || r.advertise == o.advertise
    ensures r == o.(advertise := r.advertise)
  {
    if o.advertise < 5000 then o.(advertise := 5000) else o
  }

  // ---------------------------------------------------------------- the registry

  /** Entries are identified by sender address and service name. */
  function Key(e: Entry): (string, string) { (e.address, e.service) }

  /** The entries an announcement from `sender` produces; the secure flag is not carried over. */
  function Received(a: Announcement, sender: string, now: int): (r: seq<Entry>)
    ensures |r| == |a.service|
    ensures forall i :: 0 <= i < |r| ==>
      Key(r[i]) == (sender, a.service[i].name) && r[i].lastSeen == now &&
      r[i].port == a.service[i].port && r[i].path == a.service[i].path &&
      r[i].hostname == a.hostname && r[i].scope == a.scope &&
      r[i].uptimeOs == a.uptimeOs && r[i].uptimeProc == a.uptimeProc
  {
    seq(|a.service|, i requires 0 <= i < |a.service| =>
      var svc := a.service[i];
      Entry(a.hostname, svc.name, a.scope, sender, svc.port, svc.path, a.uptimeOs, a.uptimeProc, now))
  }

  function SameKeyAs(e: Entry): Entry -> bool
  {
    (x: Entry) => Key(x) == Key(e)
  }

  /** The handler's test for an existing entry: no received entry shares its key. */
  predicate Kept(e: Entry, received: seq<Entry>)
  {
    |Filter(received, SameKeyAs(e))| == 0
  }

  function KeptBy(received: seq<Entry>): Entry -> bool
  {
    (e: Entry) => Kept(e, received)
  }

  lemma KeptIff(e: Entry, received: seq<Entry>)
    ensures Kept(e, received) <==> forall x :: x in received ==> Key(x) != Key(e)
  {
    if !Kept(e, received) {
      var x := Filter(received, SameKeyAs(e))[0];
      assert x in received && Key(x) == Key(e);
    }
    forall x | x in received && Key(x) == Key(e) ensures !Kept(e, received) {
      FilterMembership(received, SameKeyAs(e), x);
    }
  }

  /** The registry after a receipt: the untouched entries in their order, then the received ones. */
  function ReplacedBy(registry: seq<Entry>, received: seq<Entry>): (r: seq<Entry>)
    ensures |received| <= |r| <= |registry| + |received|
    ensures r[|r| - |received|..] == received
    ensures IsSubsequence(r[..|r| - |received|], registry)
  {
    var kept := Filter(registry, KeptBy(received));
    FilterIsSubsequence(registry, KeptBy(received));
    assert (kept + received)[..|kept|] == kept;
    kept + received
  }

  /** An entry is in the new registry exactly when it was received, or was there and nothing received replaces it. */
  lemma ReplacedByMembership(registry: seq<Entry>, received: seq<Entry>, e: Entry)
    ensures e in ReplacedBy(registry, received) <==>
      e in received || (e in registry && forall x :: x in received ==> Key(x) != Key(e))
  {
    FilterMembership(registry, KeptBy(received), e);
    KeptIff(e, received);
  }

  /** Hearing the same announcement from the same sender again does not change the registry's length. */
  lemma ReReceiveKeepsLength(registry: seq<Entry>, a: Announcement, sender: string, t1: int, t2: int)
    ensures var first := ReplacedBy(registry, Received(a, sender, t1));
      |ReplacedBy(first, Received(a, sender, t2))| == |first|
  {
    var r1, r2 := Received(a, sender, t1), Received(a, sender, t2);
    var kept := Filter(registry, KeptBy(r1));
    forall i | 0 <= i < |kept| ensures Kept(kept[i], r2) {
      KeptIff(kept[i], r1);
      KeptIff(kept[i], r2);
      forall x | x in r2 ensures Key(x) != Key(kept[i]) {
        var j :| 0 <= j < |r2| && r2[j] == x;
        assert r1[j] in r1;
      }
    }
    FilterKeepsAll(kept, KeptBy(r2));
    forall i | 0 <= i < |r1| ensures !Kept(r1[i], r2) {
      KeptIff(r1[i], r2);
      assert r2[i] in r2;
    }
    FilterNone(r1, KeptBy(r2));
    FilterAppend(kept, r1, KeptBy(r2));
  }

  /** No two entries share a key. */
  predicate UniqueKeys(s: seq<Entry>)
  {
    forall i, j :: 0 <= i < j < |s| ==> Key(s[i]) != Key(s[j])
  }

  predicate DistinctNames(services: seq<ServiceDescriptor>)
  {
    forall i, j :: 0 <= i < j < |services| ==> services[i].name != services[j].name
  }

  lemma AppendUniqueKeys(a: seq<Entry>, b: seq<Entry>)
    requires UniqueKeys(a) && UniqueKeys(b)
    requires forall x, y :: x in a && y in b ==> Key(x) != Key(y)
    ensures UniqueKeys(a + b)
  {
    forall i, j | 0 <= i < j < |a + b| ensures Key((a + b)[i]) != Key((a + b)[j]) {
      if j >= |a| && i < |a| {
        assert (a + b)[i] in a && (a + b)[j] in b;
      } else if i >= |a| {
        assert (a + b)[i] == b[i - |a|] && (a + b)[j] == b[j - |a|];
      }
    }
  }

  lemma {:induction false} FilterUniqueKeys(s: seq<Entry>, p: Entry -> bool)
    requires UniqueKeys(s)
    ensures UniqueKeys(Filter(s, p))
  {
    if |s| > 0 {
      assert UniqueKeys(s[1..]) by {
        forall i, j | 0 <= i < j < |s[1..]| ensures Key(s[1..][i]) != Key(s[1..][j]) {
          assert s[1..][i] == s[i + 1] && s[1..][j] == s[j + 1];
        }
      }
      FilterUniqueKeys(s[1..], p);
      var rest := Filter(s[1..], p);
      if p(s[0]) {
        forall x, y | x in [s[0]] && y in rest ensures Key(x) != Key(y) {
          FilterMembership(s[1..], p, y);
          var k :| 0 <= k < |s[1..]| && s[1..][k] == y;
          assert s[k + 1] == y;
        }
        AppendUniqueKeys([s[0]], rest);
      }
    }
  }

  /** A receipt keeps keys unique when the announcement names each service once. */
  lemma ReceiveKeepsKeysUnique(registry: seq<Entry>, a: Announcement, sender: string, now: int)
    requires UniqueKeys(registry) && DistinctNames(a.service)
    ensures UniqueKeys(ReplacedBy(registry, Received(a, sender, now)))
  {
    var received := Received(a, sender, now);
    var kept := Filter(registry, KeptBy(received));
    FilterUniqueKeys(registry, KeptBy(received));
    forall x, y | x in kept && y in received ensures Key(x) != Key(y) {
      FilterMembership(registry, KeptBy(received), x);
      KeptIff(x, received);
    }
    AppendUniqueKeys(kept, received);
  }

  /** An entry survives a purge at time `deadline` when it was last seen strictly after it. */
  function FreshSince(deadline: int): Entry -> bool
  {
    (e: Entry) => deadline < e.lastSeen
  }

  /** The registry after a purge at `now` with a window of `purge` seconds; a window of zero or less keeps everything. */
  function Purged(registry: seq<Entry>, purge: int, now: int): (r: seq<Entry>)
    ensures forall i :: 0 <= i < |r| ==> r[i] in registry && (purge <= 0 || now - purge * 1000 < r[i].lastSeen)
    ensures IsSubsequence(r, registry)
    ensures purge <= 0 ==> r == registry
  {
    if purge <= 0 then
      SubsequenceReflexive(registry);
      registry
    else
      FilterIsSubsequence(registry, FreshSince(now - purge * 1000));
      Filter(registry, FreshSince(now - purge * 1000))
  }

  /**
   * An entry survives a purge exactly when the window is disabled or it was last seen
   * strictly after `now` minus the window: one last seen exactly at the deadline is removed.
   */
  lemma PurgedMembership(registry: seq<Entry>, purge: int, now: int, e: Entry)
    ensures e in Purged(registry, purge, now) <==> e in registry && (purge <= 0 || now - purge * 1000 < e.lastSeen)
  {
    if purge > 0 {
      FilterMembership(registry, FreshSince(now - purge * 1000), e);
    }
  }

  lemma PurgeIdempotent(registry: seq<Entry>, purge: int, now: int)
    ensures Purged(Purged(registry, purge, now), purge, now) == Purged(registry, purge, now)
  {
    if purge > 0 {
      var p := FreshSince(now - purge * 1000);
      FilterNarrowing(registry, p, p);
    }
  }

  /** A purge at a later time subsumes an earlier one. */
  lemma PurgeLater(registry: seq<Entry>, purge: int, t1: int, t2: int)
    requires t1 <= t2
    ensures Purged(Purged(registry, purge, t1), purge, t2) == Purged(registry, purge, t2)
  {
    if purge > 0 {
      FilterNarrowing(registry, FreshSince(t1 - purge * 1000), FreshSince(t2 - purge * 1000));
    }
  }

  lemma PurgeKeepsKeysUnique(registry: seq<Entry>, purge: int, now: int)
    requires UniqueKeys(registry)
    ensures UniqueKeys(Purged(registry, purge, now))
  {
    if purge > 0 {
      FilterUniqueKeys(registry, FreshSince(now - purge * 1000));
    }
  }

  // ---------------------------------------------------------------- announcing

  /** An interface record whose `cidr` text the calculator accepts. */
  predicate CidrOk(r: Ipv4Interfaces.InterfaceRecord)
  {
    r.cidr.Some? && r.cidr.value != "" && AddressInformation.ValidInput(r.cidr.value)
  }

  /** The broadcast address the calculator derives for an interface whose `cidr` it accepts. */
  ghost function BroadcastOf(r: Ipv4Interfaces.InterfaceRecord): Option<string>
  {
    if CidrOk(r) then
      var info := AddressInformation.AddressInfoOf(r.cidr.value);
      if info.Some? then info.value.broadcast else None
    else None
  }

  /** The broadcast address of each interface, in order. */
  ghost function Broadcasts(ifaces: seq<Ipv4Interfaces.InterfaceRecord>): (r: seq<Option<string>>)
    ensures |r| == |ifaces|
  {
    if |ifaces| == 0 then [] else Broadcasts(ifaces[..|ifaces| - 1]) + [BroadcastOf(ifaces[|ifaces| - 1])]
  }

  lemma {:induction false} BroadcastsPointwise(ifaces: seq<Ipv4Interfaces.InterfaceRecord>, i: nat)
    requires i < |ifaces|
    ensures Broadcasts(ifaces)[i] == BroadcastOf(ifaces[i])
  {
    if i < |ifaces| - 1 {
      BroadcastsPointwise(ifaces[..|ifaces| - 1], i);
    }
  }

  /** The datagrams one announcement tick sends: one per defined broadcast address, in order. */
  function SendTargets(broadcasts: seq<Option<string>>, port: int, message: Announcement): (r: seq<Datagram>)
    ensures |r| <= |broadcasts|
    ensures forall k :: 0 <= k < |r| ==> r[k].port == port && r[k].message == message && Some(r[k].address) in broadcasts
  {
    if |broadcasts| == 0 then []
    else
      var init, last := broadcasts[..|broadcasts| - 1], broadcasts[|broadcasts| - 1];
      assert forall x :: x in init ==> x in broadcasts;
      SendTargets(init, port, message) + if last.Some? then [Datagram(last.value, port, message)] else []
  }

  function IsDefined(b: Option<string>): bool { b.Some? }

  /** Exactly the defined broadcast addresses are targeted, each once, in interface order. */
  lemma {:induction false} SendTargetsExact(broadcasts: seq<Option<string>>, port: int, message: Announcement)
    ensures var defined := Filter(broadcasts, IsDefined); var sent := SendTargets(broadcasts, port, message);
      |sent| == |defined| &&
      forall k :: 0 <= k < |defined| ==> sent[k] == Datagram(defined[k].value, port, message)
  {
    if |broadcasts| > 0 {
      var init, last := broadcasts[..|broadcasts| - 1], broadcasts[|broadcasts| - 1];
      SendTargetsExact(init, port, message);
      assert broadcasts == init + [last];
      FilterAppend(init, [last], IsDefined);
      assert Filter([last], IsDefined) == if last.Some? then [last] else [];
    }
  }

  /** `getAddressInformation(iface.cidr).broadcast`. */
  method BroadcastTarget(r: Ipv4Interfaces.InterfaceRecord) returns (address: Option<string>)
    requires CidrOk(r)
    ensures address == BroadcastOf(r)
  {
    var info := AddressInformation.GetAddressInformation(r.cidr.value);
    assert info.Some?;
    address := info.value.broadcast;
  }

  /** The sends of one tick: ask the calculator for each interface's broadcast address and send where there is one. */
  method SendAll(interfaces: seq<Ipv4Interfaces.InterfaceRecord>, port: int, message: Announcement) returns (sent: seq<Datagram>)
    requires forall i :: 0 <= i < |interfaces| ==> CidrOk(interfaces[i])
    ensures sent == SendTargets(Broadcasts(interfaces), port, message)
  {
    sent := [];
    for i := 0 to |interfaces|
      invariant sent == SendTargets(Broadcasts(interfaces[..i]), port, message)
    {
      var address := BroadcastTarget(interfaces[i]);
      if address.Some? {
        sent := sent + [Datagram(address.value, port, message)];
      }
      ghost var prefix := interfaces[..i + 1];
      assert prefix[..i] == interfaces[..i];
      ghost var before := Broadcasts(interfaces[..i]);
      assert Broadcasts(prefix) == before + [address];
      assert (before + [address])[..i] == before;
    }
    assert interfaces[..|interfaces|] == interfaces;
  }

  /** The corrected guard of the announcement tick: a socket and at least one configured service. */
  predicate SendGuard(socketOpen: bool, opts: Option<Options>)
  {
    socketOpen && opts.Some? && |opts.value.service| != 0
  }

  /** `x.length` for an option value other than `null`; numbers, booleans and handlers are read as having none. */
  function LengthOf(v: OptionValue): Option<nat>
    requires !v.Null?
  {
    match v
    case Services(list) => Some(|list|)
    case Str(s) => Some(|s|)
    case _ => None
  }

  /**
   * The guard of the announcement tick as written: it reads `opts.services`, a key that only
   * exists when the caller supplied it as an (unknown) option; when it is missing, `null` or
   * `undefined`, reading its length throws. `Success(true)` means the tick goes on to send.
   */
  function SendGuardAsWritten(socketOpen: bool, opts: Option<Options>): (r: Outcome<bool>)
    ensures socketOpen ==>
      (r.Failure? <==> opts.None? || Lookup(opts.value.extras, "services").None? ||
                       Lookup(opts.value.extras, "services").value.Null?)
    ensures !socketOpen ==> r == Success(false)
  {
    if !socketOpen then Success(false)
    else if opts.None? then Failure(TypeError("Cannot read property 'length' of undefined"))
    else match Lookup(opts.value.extras, "services")
      case None => Failure(TypeError("Cannot read property 'length' of undefined"))
      case Some(Null) => Failure(TypeError("Cannot read property 'length' of null"))
      case Some(v) => Success(LengthOf(v) != Some(0))
  }

  /** Started with options that lack a `services` key, the tick as written throws whatever services are configured. */
  lemma SendGuardAsWrittenThrows(supplied: seq<(string, OptionValue)>)
    requires AllTyped(supplied)
    requires forall i :: 0 <= i < |supplied| ==> supplied[i].0 != "services"
    ensures SendGuardAsWritten(true, Some(Clamped(Merge(Defaults, supplied)))).Failure?
  {
    ServicesKeyIsUnknown();
    MergeOverrides(Defaults, supplied, "services");
  }

  /** Started with a `services` option of `null` or `undefined`, the tick as written throws as well. */
  lemma SendGuardAsWrittenThrowsOnNull(supplied: seq<(string, OptionValue)>)
    requires AllTyped(supplied) && Lookup(supplied, "services") == Some(Null)
    ensures SendGuardAsWritten(true, Some(Clamped(Merge(Defaults, supplied)))).Failure?
  {
    ServicesKeyIsUnknown();
    MergeOverrides(Defaults, supplied, "services");
  }

  /** `services` is not one of the documented keys. */
  lemma ServicesKeyIsUnknown()
    ensures KeyOf("services") == OtherKey
  {
    var name := "services";
    assert |name| == 8 && name[0] == 's' && name[7] == 's';
    assert "loopback"[0] == 'l' && "scope"[1] == 'c' && "service"[1] == 'e';
  }

  /** With the corrected guard, a started engine announces exactly when the last `service` option supplied is a non-empty list. */
  lemma SendGuardFollowsServiceOption(supplied: seq<(string, OptionValue)>)
    requires AllTyped(supplied)
    ensures SendGuard(true, Some(Clamped(Merge(Defaults, supplied)))) <==>
      var v := Lookup(supplied, "service"); v.Some? && v.value.Services? && |v.value.list| > 0
  {
    MergeOverrides(Defaults, supplied, "service");
  }

  /**
   * The message handler as written: after building the received entries it reads the length of
   * `service`, a name declared nowhere in scope, so every announcement throws and the registry
   * is never updated.
   */
  function MessageHandlerAsWritten(registry: seq<Entry>, a: Announcement, sender: string, now: int): (r: Outcome<seq<Entry>>)
    ensures r.Failure? && r.fault.ReferenceError?
  {
    Failure(ReferenceError("service is not defined"))
  }

  /** An announcement of one or more services is lost by the handler as written but recorded by the corrected one. */
  lemma MessageHandlerLosesAnnouncements(registry: seq<Entry>, a: Announcement, sender: string, now: int)
    requires |a.service| > 0
    ensures MessageHandlerAsWritten(registry, a, sender, now).Failure?
    ensures var e := Received(a, sender, now)[0];
      e in ReplacedBy(registry, Received(a, sender, now)) && Key(e) == (sender, a.service[0].name)
  {
    var received := Received(a, sender, now);
    ReplacedByMembership(registry, received, received[0]);
  }

  // ---------------------------------------------------------------- the engine

  class NetworkServiceDiscover {
    /** The options; `None` until the first `start` (the source's empty object). */
    var opts: Option<Options>
    /** Whether the socket exists. */
    var socketOpen: bool
    /** The delay in milliseconds the announcement timer was requested with, while it runs. */
    var timerPeriod: Option<int>
    /** The registry. */
    var services: seq<Entry>

    predicate Valid()
      reads this
    {
      (socketOpen ==> opts.Some?) &&
      (opts.Some? ==> opts.value.advertise >= 5000) &&
      (timerPeriod.Some? ==> socketOpen && timerPeriod == Some(1000 * opts.value.advertise)) &&
      (opts.None? ==> services == [])
    }

    constructor ()
      ensures Valid()
      ensures opts == None && !socketOpen && timerPeriod == None && services == []
    {
      opts := None;
      socketOpen := false;
      timerPeriod := None;
      services := [];
    }

    /** The delay requested of the running timer is at least 5000 seconds (`timerPeriod` is the requested delay in milliseconds). */
    lemma TimerFloor()
      requires Valid()
      ensures timerPeriod.Some? ==> timerPeriod.value >= 5_000_000
    {
    }

    /**
     * Drop the entries not heard of within the purge window. Before the first `start` the
     * window is undefined and the source's comparison with it fails for every entry, but the
     * registry is then empty anyway.
     */
    method Purge(now: int)
      requires Valid()
      modifies this`services
      ensures Valid()
      ensures services == if opts.None? then [] else Purged(old(services), opts.value.purge, now)
    {
      if opts.None? {
        services := [];
      } else {
        services := Purged(services, opts.value.purge, now);
      }
    }

    /** Purge, then hand out the registry. */
    method GetServices(now: int) returns (snapshot: seq<Entry>)
      requires Valid()
      modifies this`services
      ensures Valid()
      ensures services == if opts.None? then [] else Purged(old(services), opts.value.purge, now)
      ensures snapshot == services
    {
      Purge(now);
      snapshot := services;
    }

    /**
     * The message handler, corrected to compare with the registry's length before the update:
     * replace and append the received entries, purge, and report the registry to the change
     * handler when its length differs from before, after the replacement or after the purge.
     */
    method Receive(a: Announcement, sender: string, now: int) returns (notified: Option<seq<Entry>>)
      requires Valid() && socketOpen
      modifies this`services
      ensures Valid()
      ensures var replaced := ReplacedBy(old(services), Received(a, sender, now));
        services == Purged(replaced, opts.value.purge, now) &&
        notified == if opts.value.onChange && (|replaced| != |old(services)| || |services| != |old(services)|)
                    then Some(services) else None
    {
      var serviceCount := |services|;
      var received := Received(a, sender, now);
      services := ReplacedBy(services, received);
      var changed := |services| != serviceCount;
      Purge(now);
      changed := changed || |services| != serviceCount;
      notified := if changed && opts.value.onChange then Some(services) else None;
    }

    /**
     * One announcement tick, with the corrected guard: when the socket is open and services
     * are configured, name the interface records after their interfaces, send the announcement
     * to the broadcast address of every selected interface that has one, then purge.
     */
    method Advertise(table: Ipv4Interfaces.Table, hostname: string, uptimeOs: int, uptimeProc: int, now: int)
      returns (sent: seq<Datagram>)
      requires Valid() && Ipv4Interfaces.DistinctRecords(table)
      requires opts.Some? ==> forall r :: r in Ipv4Interfaces.Ipv4Of(table, !opts.value.loopback) ==> CidrOk(r)
      modifies this`services, Ipv4Interfaces.Records(table)
      ensures Valid()
      ensures !SendGuard(socketOpen, opts) ==>
        sent == [] && services == old(services) && unchanged(Ipv4Interfaces.Records(table))
      ensures SendGuard(socketOpen, opts) ==>
        var o := opts.value;
        sent == SendTargets(Broadcasts(Ipv4Interfaces.Ipv4Of(table, !o.loopback)), o.port,
                            Announcement(hostname, o.scope, uptimeOs, uptimeProc, o.service)) &&
        services == Purged(old(services), o.purge, now) &&
        forall i, j :: 0 <= i < |table| && 0 <= j < |table[i].1| ==> table[i].1[j].name == Some(table[i].0)
    {
      if !socketOpen || |opts.value.service| == 0 {
        return [];
      }
      var o := opts.value;
      var message := Announcement(hostname, o.scope, uptimeOs, uptimeProc, o.service);
      var interfaces := Ipv4Interfaces.GetIpv4Interfaces(table, !o.loopback);
      sent := SendAll(interfaces, o.port, message);
      Purge(now);
    }

    /**
     * Start the engine unless its socket exists: report each unknown option key (and carry on),
     * merge the options over the defaults, raise the interval to 5000 and create the socket.
     * A successful bind starts the timer at 1000 times the interval and reports the socket; a
     * failed bind arrives as the socket's error event, so the socket error handler closes the
     * socket and passes the error to the error handler, and the start callback hears nothing more.
     */
    method Start(supplied: seq<(string, OptionValue)>, bindSucceeds: bool)
      returns (callbacks: seq<StartCallback>, errorReported: bool)
      requires Valid() && AllTyped(supplied) && DistinctKeys(supplied)
      modifies this`opts, this`socketOpen, this`timerPeriod
      ensures Valid()
      ensures old(socketOpen) ==>
        callbacks == [] && !errorReported && opts == old(opts) && socketOpen && timerPeriod == old(timerPeriod)
      ensures !old(socketOpen) ==>
        opts == Some(Clamped(Merge(Defaults, supplied))) &&
        callbacks == UnknownOptionReports(supplied) + (if bindSucceeds then [Ready] else []) &&
        socketOpen == bindSucceeds &&
        timerPeriod == (if bindSucceeds then Some(1000 * opts.value.advertise) else None) &&
        errorReported == (!bindSucceeds && opts.value.onError)
    {
      if socketOpen {
        return [], false;
      }
      callbacks := [];
      for i := 0 to |supplied|
        invariant callbacks == UnknownOptionReports(supplied[..i])
      {
        if KeyOf(supplied[i].0) == OtherKey {
          callbacks := callbacks + [UnknownOption(supplied[i].0)];
        }
        assert supplied[..i + 1][..i] == supplied[..i];
      }
      assert supplied[..|supplied|] == supplied;
      var o := Merge(Defaults, supplied);
      if o.advertise < 5000 {
        o := o.(advertise := 5000);
      }
      opts := Some(o);
      socketOpen := true;
      errorReported := false;
      if bindSucceeds {
        if o.advertise > 0 {
          timerPeriod := Some(1000 * o.advertise);
        }
        callbacks := callbacks + [Ready];
      } else {
        errorReported := SocketError();
      }
    }

    /** Close the socket and stop the timer; the completion callback runs only if there was a socket. The registry is kept. */
    method Stop() returns (done: bool)
      requires Valid()
      modifies this`socketOpen, this`timerPeriod
      ensures Valid()
      ensures done == old(socketOpen) && !socketOpen && timerPeriod == None
    {
      done := socketOpen;
      socketOpen := false;
      timerPeriod := None;
    }

    /** A socket error closes the socket (which stops the timer) and is passed to the error handler if one is set. */
    method SocketError() returns (reported: bool)
      requires Valid() && socketOpen
      modifies this`socketOpen, this`timerPeriod
      ensures Valid()
      ensures !socketOpen && timerPeriod == None && reported == opts.value.onError
    {
      socketOpen := false;
      timerPeriod := None;
      reported := opts.value.onError;
    }
  }
}

=== FILE: text.dfy ===
/**
 * The JavaScript string operations the calculator relies on: `split`, `join`,
 * `indexOf`, decimal numerals as read by `parseInt(s, 10)` and `Number(s)`, and
 * the decimal rendering of integers by `Number.prototype.toString`.
 */
module Text {

  predicate IsDigit(c: char) { '0' <= c <= '9' }

  /** A run of decimal digits, possibly empty. */
  predicate AllDigits(s: string) { forall i :: 0 <= i < |s| ==> IsDigit(s[i]) }

  /** A non-empty run of decimal digits: a numeral `parseInt(s, 10)` and `Number(s)` read alike. */
  predicate IsNumeral(s: string) { |s| > 0 && AllDigits(s) }

  /** The value of a decimal numeral; leading zeros are allowed and read as decimal. */
  function DigitsValue(s: string): nat
    requires AllDigits(s)
  {
    if |s| == 0 then 0
    else 10 * DigitsValue(s[..|s| - 1]) + (s[|s| - 1] as int - '0' as int)
  }

  /** The shortest decimal numeral of `n`, as JavaScript prints a non-negative integer. */
  function NatToString(n: nat): (s: string)
    ensures IsNumeral(s)
    ensures n > 0 ==> s[0] != '0'
  {
    if n < 10 then [('0' as int + n) as char]
    else NatToString(n / 10) + [('0' as int + n % 10) as char]
  }

  /** JavaScript's rendering of an integer: a minus sign before negative values. */
  function IntToString(i: int): string
  {
    if i < 0 then "-" + NatToString(-i) else NatToString(i)
  }

  lemma {:induction false} NumeralRoundTrip(n: nat)
    ensures DigitsValue(NatToString(n)) == n
  {
    if n >= 10 {
      NumeralRoundTrip(n / 10);
      var s := NatToString(n);
      assert s[..|s| - 1] == NatToString(n / 10);
    }
  }

  /** `s.indexOf(c)`: the first position of `c`, or -1. */
  function IndexOf(s: string, c: char): (k: int)
    ensures -1 <= k < |s|
    ensures k == -1 <==> c !in s
    ensures 0 <= k ==> s[k] == c && c !in s[..k]
  {
    if |s| == 0 then -1
    else if s[0] == c then 0
    else
      var k := IndexOf(s[1..], c);
      assert k >= 0 ==> s[1..][..k] == s[1..k + 1];
      if k == -1 then -1 else k + 1
  }

  /** `s.split(sep)`: the pieces between separators; there is always at least one. */
  function Split(s: string, sep: char): (parts: seq<string>)
    ensures |parts| >= 1
    ensures forall i :: 0 <= i < |parts| ==> sep !in parts[i]
  {
    if |s| == 0 then [""]
    else
      var rest := Split(s[1..], sep);
      if s[0] == sep then [""] + rest
      else [[s[0]] + rest[0]] + rest[1..]
  }

  /** `parts.join(sep)`. */
  function Join(parts: seq<string>, sep: char): string
  {
    if |parts| == 0 then ""
    else if |parts| == 1 then parts[0]
    else parts[0] + [sep] + Join(parts[1..], sep)
  }

  lemma {:induction false} SplitWithoutSeparator(s: string, sep: char)
    requires sep !in s
    ensures Split(s, sep) == [s]
  {
    if |s| > 0 {
      SplitWithoutSeparator(s[1..], sep);
      assert [s[0]] + s[1..] == s;
    }
  }

  lemma {:induction false} SplitAtSeparator(a: string, b: string, sep: char)
    requires sep !in a
    ensures Split(a + [sep] + b, sep) == [a] + Split(b, sep)
  {
    var s := a + [sep] + b;
    if |a| == 0 {
      assert s[1..] == b;
    } else {
      assert s[1..] == a[1..] + [sep] + b;
      SplitAtSeparator(a[1..], b, sep);
      assert [a[0]] + a[1..] == a;
    }
  }

  /** Splitting undoes joining pieces that do not contain the separator. */
  lemma {:induction false} SplitJoin(parts: seq<string>, sep: char)
    requires |parts| >= 1
    requires forall i :: 0 <= i < |parts| ==> sep !in parts[i]
    ensures Split(Join(parts, sep), sep) == parts
  {
    if |parts| == 1 {
      SplitWithoutSeparator(parts[0], sep);
    } else {
      SplitJoin(parts[1..], sep);
      SplitAtSeparator(parts[0], Join(parts[1..], sep), sep);
      assert [parts[0]] + parts[1..] == parts;
    }
  }

  /** The first `c` in `a + [c] + b` is the one right after `a` when `a` has none. */
  lemma {:induction false} IndexOfAfter(a: string, c: char, b: string)
    requires c !in a
    ensures IndexOf(a + [c] + b, c) == |a|
  {
    if |a| > 0 {
      IndexOfAfter(a[1..], c, b);
      assert (a + [c] + b)[1..] == a[1..] + [c] + b;
    }
  }

  /** A character that is neither the separator nor in any piece is not in the joined text. */
  lemma {:induction false} JoinAvoids(parts: seq<string>, sep: char, c: char)
    requires c != sep
    requires forall i :: 0 <= i < |parts| ==> c !in parts[i]
    ensures c !in Join(parts, sep)
  {
    if |parts| > 1 {
      JoinAvoids(parts[1..], sep, c);
    }
  }
}

=== FILE: wrappers.dfy ===
/** JavaScript's `null` for a value that may be absent. */
module Wrappers {
  datatype Option<+T> = None | Some(value: T)
}
